=== FILE: README.md ===
# Flight booking: a verified model of the booking core

This project models the core of the Flight-Booking web application in Dafny:

- the Express routes of `backend/server.js`:
  - the bearer-token middleware, registration and login;
  - the flight search and the flight detail;
  - creating and cancelling a booking;
  - paying for a booking;
- the database helpers of `backend/db/sqlite.js`: the splitter that cuts the schema script into statements, and `closeDatabase`;
- the booking-flow guards of the browser client in `frontend/js/script.js`: the passenger counter, the return-date clamp, the price summary and the select-seat → proceed → book → pay steps.

The SQLite database is an immutable value (`Store.Db`). Each table is a sequence of rows in rowid order. Rowid order is id order, so ids ascend strictly in every table.

Every route is a pure function from a request and a database to a response and a new database. The booking, cancel, registration and login routes return the database unchanged when they refuse a request: each either runs inside a transaction that it rolls back, or refuses before writing. The payment route is the exception: it inserts the payment row before it looks the booking up, with no transaction, so that row stays even when the route then answers 404 (booking not found) or 500 (the temporary directory or the confirmation PDF failed).

Foreign libraries enter as parameters:

- `jwt.verify` is a function from a token to optional claims.
- `bcrypt.hash` is the stored hash string.
- `bcrypt.compare` is a predicate.
- `Date.now()` references (`'BK…'`, `'TXN…'`) are strings supplied by the caller.
- Whether the temporary PDF directory, the confirmation PDF and the e-mail succeeded are booleans.

The database consistency the routes must keep is `Store.Valid`:

- every table is in id order;
- foreign keys resolve, and a booking's flight is its seat's flight;
- each flight's `available_seats` counter equals its number of available seats;
- a seat is taken exactly when one confirmed booking holds it;
- emails and usernames are unique.

Modules, one per file:

| file | module | models |
|---|---|---|
| base.dfy | Base | `Option`, `Result` |
| text.dfy | Text | JavaScript `trim`, `split`/`join`, `parseInt`, string `<`, SQLite `LOWER` |
| schema.dfy | Schema | schema splitting and `closeDatabase` |
| api.dfy | Api | error responses and their status codes |
| store.dfy | Store | tables, SQL `get`/`UPDATE` semantics, the consistency invariant |
| accounts.dfy | Accounts | `authenticateToken`, `POST /api/register`, `POST /api/login` |
| flights.dfy | Flights | `GET /api/flights/search`, `GET /api/flights/:id` |
| bookings.dfy | Bookings | `POST /api/bookings`, `PUT /api/bookings/:id/cancel`, and their corrected forms |
| invariants.dfy | Invariants | which writes keep `Store.Valid`, and the booking/cancel round trip |
| payments.dfy | Payments | `POST /api/payments` |
| client.dfy | Client | the browser's booking flow |
| scenarios.dfy | Scenarios | concrete databases exhibiting the two findings |

## Model

| member | source | states |
|---|---|---|
| Text.Trim | backend/db/sqlite.js:27 | the result has no JavaScript whitespace at either end and contains only characters of the input |
| Text.TrimIsSlice | backend/db/sqlite.js:27 | the trimmed text is a contiguous slice of the input, and everything cut off on either side is whitespace |
| Text.TrimIdempotent | backend/db/sqlite.js:27 | `trim` is idempotent: trimming an already trimmed text changes nothing |
| Text.Lower | backend/server.js:92-93 | `LOWER` keeps the length and folds each character independently; only `A`-`Z` change, by +32 |
| Text.Split | backend/db/sqlite.js:26 | `split(';')` yields at least one chunk, and no chunk contains the separator |
| Text.SplitSeveral | backend/server.js:29 | a string splits into two or more words exactly when it contains the separator |
| Text.JoinSplit | backend/db/sqlite.js:26 | joining the chunks of a split with the separator gives back the original text |
| Text.SplitJoin | backend/db/sqlite.js:26 | splitting the join of separator-free chunks gives back those chunks |
| Text.SplitAppend | backend/db/sqlite.js:26 | splitting `a;b` yields the chunks of `a` followed by the chunks of `b` |
| Text.SecondChunk | backend/server.js:29 | the second chunk of a split is the text between the first separator and the next separator or the end |
| Text.LexLeTotal | backend/server.js:95 | any two departure times are comparable in string order |
| Text.LexLeTransitive | backend/server.js:95 | string order is transitive, so sorting by departure time is well defined |
| Text.LexLeAntisymmetric | backend/server.js:95 | two strings each no greater than the other are equal |
| Text.ParseIntToDecimal | backend/server.js:82 | `parseInt` reads back the decimal rendering of every natural number |
| Text.DecimalIsParsed | backend/server.js:82 | `parseInt` of a non-empty all-digit string is the value of those digits |
| Schema.CleanChunk | backend/db/sqlite.js:27-28 | a chunk contributes its trimmed text when that is non-empty and not a `--` comment, and nothing otherwise |
| Schema.Statements | backend/db/sqlite.js:25-28 | every prepared statement is non-empty, trimmed, free of `;` and not a `--` comment |
| Schema.InitialStatements | backend/db/sqlite.js:22-35 | with no schema file nothing is run; with one, exactly the statements its splitter yields are run, in script order, and each is well-formed |
| Schema.CleanWellFormed | backend/db/sqlite.js:27-28 | every chunk kept by the filter is trimmed and passes the filter, and no separator appears in it |
| Schema.StatementsAppend | backend/db/sqlite.js:25-31 | the statements of `a;b` are those of `a` followed by those of `b`, so script order is execution order |
| Schema.StatementsOfChunk | backend/db/sqlite.js:25-28 | a separator-free text yields exactly its trimmed self if that passes the filter, and nothing otherwise |
| Schema.CommentSwallowsStatement | backend/db/sqlite.js:28 | a chunk that starts with a `--` comment line is dropped whole, including SQL after the comment line |
| Schema.StatementsOfJoin | backend/db/sqlite.js:25-28 | well-formed statements joined with `;` are split back into exactly those statements |
| Schema.CloseDatabase | backend/db/sqlite.js:113-125 | the promise resolves exactly when there is no handle or `close()` does not throw; on resolve the handle is cleared; on reject the handle is kept |
| Schema.CloseIdempotent | backend/db/sqlite.js:116-120 | closing an already closed database resolves and leaves no handle |
| Api.StatusCode | backend/server.js:28-31 | every error response carries a 4xx or 5xx status |
| Store.FindFirst | backend/server.js:111 | `get()` returns the first row satisfying the WHERE clause, or none when no row does |
| Store.Select | backend/server.js:100 | a filter keeps exactly the rows satisfying its predicate |
| Store.SelectCounts | backend/server.js:100 | each row satisfying the predicate is kept as many times as it occurs, and no other row is kept |
| Store.SelectAppend | backend/server.js:100 | filtering keeps table order: filtering two runs of rows is filtering each in turn |
| Store.CountAvailableSelect | backend/server.js:88-90 | the live count of a flight is the number of its seats with `is_available = 1` |
| Store.NextId | backend/server.js:146-150 | a new row's id is positive and greater than every existing id |
| Store.AppendFreshId | backend/server.js:146-150 | appending a row with an id above all existing ones keeps the table in id order |
| Store.IdsUnique | backend/server.js:172 | in a table in id order, two rows with the same id are the same row |
| Store.SetSeatAvailability | backend/server.js:152 | `UPDATE seats SET is_available WHERE id` changes exactly the flag of the rows with that id |
| Store.AdjustAvailableSeats | backend/server.js:153 | `available_seats ± 1 WHERE id` changes exactly the counter of the rows with that id |
| Store.SetBookingStatus | backend/server.js:178 | `UPDATE bookings SET status WHERE id` changes exactly the status of the rows with that id |
| Store.CountAfterSetSeat | backend/server.js:152 | changing one seat's flag moves its flight's live count of available seats by one, and leaves other flights' counts alone |
| Store.ConfirmedAfterCancel | backend/server.js:178 | cancelling one booking lowers the confirmed count of its seat by one if it was confirmed, and leaves other seats alone |
| Store.ConfirmedAfterAppend | backend/server.js:146-150 | appending a booking adds one confirmed holder to its seat if it is confirmed, and to no other seat |
| Accounts.BearerToken | backend/server.js:29 | a token is found exactly when the header contains a space; it is the second word: the text after the first space up to the next space or the end |
| Accounts.SecondWordOfSplit | backend/server.js:29 | `split(' ')[1]` is the text after the first space up to the next space or the end |
| Accounts.Authenticate | backend/server.js:26-35 | a missing or empty header is 401; a header with no second word, or an empty one, is 403; success is exactly the claims `jwt.verify` returns for the header's second word |
| Accounts.BearerRoundTrip | backend/server.js:26-35 | the header `Bearer <token>` the browser sends authenticates exactly as its token verifies (an empty token is refused) |
| Accounts.Register | backend/server.js:38-54 | a taken email or username is refused and nothing changes; otherwise exactly one user is added with the form's fields, the hash and a fresh id |
| Accounts.RegisterPreservesValid | backend/server.js:41-48 | registration keeps the database consistent, in particular emails and usernames stay unique |
| Accounts.Login | backend/server.js:56-73 | every failure is "Invalid credentials"; an unknown email always fails; for the first user with that email, login succeeds exactly when the password matches its hash, and then returns that user's profile |
| Accounts.LoginAfterRegister | backend/server.js:38-73 | after registering, logging in with the same email succeeds exactly when the password matches the new hash, and yields the new account |
| Flights.PassengerCount | backend/server.js:82 | `parseInt(passengers) \|\| 1` is the parsed number when it is a non-zero number, and one when the parameter is absent, unreadable (NaN) or zero |
| Flights.PassengerCountOfCounter | backend/server.js:82 | every positive count the browser sends in decimal reaches the server unchanged |
| Flights.Hits | backend/server.js:84-98 | the grouped join lists each flight of the table once, in table order, with the number of its seats that are available |
| Flights.Insert | backend/server.js:95 | inserting into an ordered list gives an ordered permutation of the list plus the row |
| Flights.SortByDeparture | backend/server.js:95 | the result is ordered by departure time and is a permutation of the input |
| Flights.OrderedIsSorted | backend/server.js:95 | adjacent order implies that every row departs no later than all later rows |
| Flights.Search | backend/server.js:76-106 | missing departure, arrival or date is a 400; otherwise the result is sorted by departure, is a permutation of the filtered grouped rows (each flight at most once), and holds exactly the flights whose cities match (case-folded, query trimmed) and whose live free-seat count reaches the passenger count |
| Flights.SameElements | backend/server.js:95-100 | sorting keeps exactly the filtered rows |
| Flights.MatchesMembers | backend/server.js:84-100 | the filtered grouped rows are exactly the flights that pass the city and seat-count conditions |
| Flights.SearchIgnoresDate | backend/server.js:81 | any two non-empty dates give the same search answer |
| Flights.SeatsOf | backend/server.js:114 | the listed seats are exactly the views of the seats of that flight |
| Flights.FlightDetail | backend/server.js:108-120 | a 404 exactly when no flight has the id; otherwise that flight and exactly its seats |
| Flights.SeatsOfAscending | backend/server.js:114 | from a table in id order, the seats come back in ascending id order |
| Bookings.Admit | backend/server.js:126-144 | the checks of the booking route in their order (401, then 400, then 404, then 500), success exactly when all pass, and the new row's fields, fresh id and fare |
| Bookings.CreateBooking | backend/server.js:123-167 | each refusal leaves the database unchanged; success exactly when the user is identified and exists, the seat is free and the flight exists; success appends one confirmed booking, takes its seat, lowers its flight's counter by one and changes nothing else; the total is a flight price times a seat multiplier |
| Bookings.ReservedApplied | backend/server.js:146-153 | the three writes of a booking are exactly the insert, the seat flag and the counter decrement |
| Bookings.CancelBooking | backend/server.js:169-189 | 404 and no change exactly when the user owns no booking with that id; otherwise that booking is marked cancelled (whatever its status), its seat freed and its flight's counter raised by one, with users and payments untouched |
| Bookings.CreateBookingChecked | backend/server.js:126-153 | with the seat lookup restricted to the requested flight: 401 without a user id; a seat that is not a free seat of that flight is refused with 400 and nothing changes; success exactly when the user is identified and exists, the seat is a free seat of the flight and the flight exists, and then the route does what the route as written does |
| Bookings.CancelBookingChecked | backend/server.js:169-189 | with the lookup restricted to confirmed bookings: 404 and no change exactly when the user owns no confirmed booking with that id; otherwise that confirmed booking is marked cancelled, its seat freed and its flight's counter raised by one, with users and payments untouched |
| Invariants.HasKept | backend/server.js:152-153 | writes that keep every table's ids keep every key present |
| Invariants.KeptOrderAndReferences | backend/server.js:178-180 | writes that keep every id keep id order and foreign keys |
| Invariants.ReservedKeysKept | backend/server.js:152-153 | the seat and counter updates of a booking keep every id of the old tables |
| Invariants.ReserveOrder | backend/server.js:146-150 | the booking insert keeps every table in id order |
| Invariants.ReserveBookingReferences | backend/server.js:146-150 | the new booking refers to an existing user, flight and seat |
| Invariants.ReserveSeatFlights | backend/server.js:131-150 | when the seat belongs to the requested flight, every booking's flight is still its seat's flight |
| Invariants.ReserveOrderAndReferences | backend/server.js:146-153 | booking a seat of the requested flight keeps id order and foreign keys |
| Invariants.ReserveCounters | backend/server.js:152-153 | booking a seat of the requested flight keeps every counter equal to the live count |
| Invariants.ReserveHolds | backend/server.js:146-152 | booking a free seat keeps "a seat is taken exactly when one confirmed booking holds it" |
| Invariants.ReservePreservesValid | backend/server.js:146-153 | booking a free seat of the requested flight keeps the database consistent |
| Invariants.ReserveForeignSeatBreaksCounters | backend/server.js:131-153 | booking a seat of another flight leaves some counter unequal to its live count |
| Invariants.CreateBookingIsReserve | backend/server.js:123-167 | a successful booking is exactly the reservation of a fresh confirmed row on a free seat |
| Invariants.CreateBookingPreservesValid | backend/server.js:123-167 | when the seat belongs to the requested flight, the booking route keeps the database consistent |
| Invariants.CreateBookingForeignSeat | backend/server.js:131 | when the route accepts a seat of another flight, the counters no longer match the seats |
| Invariants.CreateBookingCheckedPreservesValid | backend/server.js:131 | the corrected booking route keeps the database consistent for every request |
| Invariants.ReleasedKeysKept | backend/server.js:178-180 | the three cancel updates keep every id |
| Invariants.ConfirmedCounted | backend/server.js:172 | a confirmed booking counts as a holder of its seat |
| Invariants.HeldSeat | backend/server.js:179 | in a consistent database, a confirmed booking's seat exists, belongs to its flight and is taken |
| Invariants.ReleaseCounters | backend/server.js:179-180 | cancelling a confirmed booking keeps every counter equal to the live count |
| Invariants.ReleaseHolds | backend/server.js:178-179 | cancelling a confirmed booking keeps the seat/booking correspondence |
| Invariants.ReleasePreservesValid | backend/server.js:178-180 | cancelling a confirmed booking keeps the database consistent |
| Invariants.ReleaseFreeSeatOvercounts | backend/server.js:179-180 | releasing a booking whose seat is already free raises a counter above the live count |
| Invariants.ReleaseTakenSeatUnderHold | backend/server.js:179 | releasing a cancelled booking whose seat was re-booked frees a seat that a confirmed booking still holds |
| Invariants.ReleaseCancelledBreaksValid | backend/server.js:178-180 | releasing an already cancelled booking always breaks consistency |
| Invariants.CancelBookingPreservesValid | backend/server.js:169-189 | cancelling keeps the database consistent when the bookings with that id are confirmed |
| Invariants.CancelBookingCheckedPreservesValid | backend/server.js:172 | the corrected cancel route keeps the database consistent for every request |
| Invariants.CancelCancelledBreaksValid | backend/server.js:172-180 | the route accepts the cancellation of an already cancelled booking, and the result is inconsistent |
| Invariants.CancelBookingTwice | backend/server.js:169-189 | cancelling an owned confirmed booking twice succeeds both times; the first result is consistent and the second is not |
| Invariants.SeatRestored | backend/server.js:152 | taking then freeing a free seat restores the seats table |
| Invariants.CounterRestored | backend/server.js:153 | decrementing then incrementing a counter restores the flights table |
| Invariants.AppendedCancelled | backend/server.js:178 | cancelling the freshest booking marks only that row |
| Invariants.ReleaseUndoesReserve | backend/server.js:146-180 | releasing a fresh reservation restores seats and flights; the only trace is the booking row, now cancelled |
| Invariants.CancelReleases | backend/server.js:172-180 | in a table in id order, the owner's cancel of a booking releases exactly that row |
| Invariants.CancelUndoesCreate | backend/server.js:123-189 | booking then cancelling the new booking succeeds and restores the database except for the cancelled booking row |
| Payments.Charges | backend/server.js:196-200 | `INSERT … SELECT` adds only completed payments for this booking id and transaction, each charging the total of a booking row with that id, and nothing for an unknown id |
| Payments.ChargesFollowSelect | backend/server.js:196-200 | `INSERT … SELECT` adds exactly one payment per selected booking row, in table order, each charging that row's total |
| Payments.Pay | backend/server.js:192-261 | only the payments table changes: the `INSERT … SELECT` rows are appended whatever the outcome, and an unknown booking changes nothing; the route fails exactly when the join finds nothing (404), the temporary directory throws (500 "Internal server error") or the PDF stream fails (500 "Failed to generate PDF"); success says "email sent" exactly when `sendMail` resolved and the temporary PDF was deleted |
| Payments.PayAppendsOne | backend/server.js:196-200 | when booking ids are unique (the consistency invariant is not needed), paying for a booking appends exactly one completed payment of that booking's total, for this method and transaction |
| Payments.ChargesOfUnique | backend/server.js:196-200 | in a table in id order, each booking is charged exactly once, for its own total |
| Payments.AppendPaymentValid | backend/server.js:196-200 | a payment naming an existing booking keeps the database consistent |
| Payments.PayChargesOnce | backend/server.js:192-261 | paying for a booking of a consistent database records exactly one completed payment of its total and keeps consistency, whatever the file system, PDF or e-mail outcome |
| Payments.PayFindsBooking | backend/server.js:202-207 | in a consistent database the join always finds the booking, so the only failures left are the temporary directory throwing (500 "Internal server error") and the PDF stream failing |
| Client.BumpSteps | frontend/js/script.js:167-168 | a click moves the count by at most one within 1 to 9: up below 9, down above 1, otherwise unchanged |
| Client.UpdatePassengerCount | frontend/js/script.js:164-170 | text that `parseInt` cannot read renders as `NaN` |
| Client.CounterTextRoundTrip | frontend/js/script.js:164-170 | on the rendered counter text, a click renders the bumped count |
| Client.ClicksStayInRange | frontend/js/script.js:167-168 | any sequence of clicks from 1 to 9 stays within 1 to 9 |
| Client.ClicksTextAgree | frontend/js/script.js:164-170 | clicking on the rendered text agrees with clicking on the number |
| Client.CounterReachesServer | frontend/js/script.js:164-170 | after any clicks, the count the search sends is read by the server as that same count, between 1 and 9 |
| Client.ValidateReturnDate | frontend/js/script.js:178-185 | when either date is empty the return date is kept; with both set, a return date before the departure date becomes the departure date and any other is kept, so the result is never before the departure date |
| Client.ValidateReturnDateIdempotent | frontend/js/script.js:178-185 | clamping twice equals clamping once |
| Client.SummaryTotal | frontend/js/script.js:299-314 | a total is displayed exactly when a seat is selected, and it is the flight's price times that seat's multiplier; without a seat the summary asks for one |
| Client.SummaryMatchesServer | frontend/js/script.js:299-303 | the total shown for a served flight and seat equals the amount the booking route charges for them |
| Client.ChargedRows | backend/server.js:137-143 | a successful booking charges the price of the requested flight times the multiplier of the requested seat |
| Client.SelectFlightStep | frontend/js/script.js:252-268 | a loaded flight replaces the flight and seat map and opens seat selection; the previously selected seat and the booking are kept; a failure only alerts |
| Client.ClickSeatStep | frontend/js/script.js:270-297 | only an available seat of the rendered map can become the selected seat, and a click changes nothing else |
| Client.ProceedStep | frontend/js/script.js:318-330 | the passenger form opens exactly when a seat is selected and the user holds a token; otherwise an alert or the login modal |
| Client.SubmitBookingStep | frontend/js/script.js:332-363 | without a flight or seat nothing happens; the current booking changes only to a successful answer, and the payment section opens only with it |
| Client.ResetFlow | frontend/js/script.js:396-403 | the flight, the seat and the booking are forgotten and the token is kept |
| Client.SubmitPaymentStep | frontend/js/script.js:365-394 | without a booking, an alert; a failed payment only alerts; a successful one clears the booking and returns to the results |
| Client.StepConsistent | frontend/js/script.js:252-403 | every step keeps the flow's guards: a selected seat was available and comes with a flight, the form needs a seat, payment needs a booking |
| Client.RunConsistent | frontend/js/script.js:252-403 | every sequence of user steps keeps the flow's guards |
| Client.StaleSeatReachesBooking | frontend/js/script.js:252-268 | selecting a second flight and proceeding builds a booking request for the new flight with the seat chosen on the old one |
| Scenarios.DemoValid | backend/server.js:123-189 | the sample database is consistent |
| Scenarios.ForeignSeatExample | backend/server.js:131 | booking seat 2 (of flight 2) on flight 1 is accepted and leaves the counters unequal to the live counts |
| Scenarios.BookedValid | backend/server.js:123-167 | booking seat 1 of flight 1 in the sample database leaves it consistent, with booking 1 confirmed for user 1 |
| Scenarios.DoubleCancelExample | backend/server.js:172 | booking seat 1 of flight 1, then cancelling booking 1 twice: both cancellations succeed and the second leaves the database inconsistent |
| Scenarios.HomeBooked | backend/server.js:123-167 | booking seat 1 of flight 1 in the sample database adds booking 1 for user 1, charged 5000 × 1.0 |
| Scenarios.FirstCancel | backend/server.js:169-189 | the owner's first cancellation of booking 1 succeeds and releases it |
| Scenarios.SecondCancel | backend/server.js:172 | the second cancellation of the already cancelled booking 1 also succeeds and releases it again |
| Scenarios.CancelledTwiceNumbers | backend/server.js:179-180 | after the two releases both seats are free, as at the start, and flight 1's counter reads 2 |
| Scenarios.DoubleCancelCounter | backend/server.js:169-189 | booking seat 1 of flight 1 and cancelling booking 1 twice: the second cancellation succeeds, leaves both seats free, and flight 1's counter reads 2 though the flight has one seat |

## Left out

- Flights.Search: a `date` that `new Date()` cannot parse makes `toISOString()` throw, giving a 500; the model treats every non-empty date as accepted, since the date is never used afterwards.
- Errors raised by the database driver or an `await` (500 "Internal server error") are modelled only where the model can name the cause: a booking whose user id has no account fails the foreign key (`Bookings.Admit`'s `InternalError`).
- Concurrency: the routes are modelled one at a time. The interleavings of the shared connection and its transactions are outside the model.
- Token signing at login (`jwt.sign`, the 24-hour expiry) and token verification are foreign libraries; verification is a parameter, and login's token is not modelled.
- Password hashing and comparison (`bcrypt`) are parameters.
- `'BK' + Date.now()` and `'TXN' + Date.now()` are caller-supplied strings; their uniqueness is not claimed.
- Prices are exact reals: JavaScript floating point and `toFixed(2)` rounding in the summary are not modelled.
- String order is by code point; JavaScript compares UTF-16 code units, which differ only outside the Basic Multilingual Plane.
- The file system, the PDF document and the mail transport are reduced to three booleans: whether the temporary directory check and creation returned normally, whether the PDF stream finished, and whether `sendMail` resolved and the temporary PDF was then deleted.
- `GET /api/bookings` (the booking list with its joins) is not part of this model.
- `updateReturnDateMin` only sets a browser attribute, and it is not modelled.
- Flight result rendering, modals, `localStorage` and the rest of the DOM are reduced to the fields the guards read. `Client.ResetFlow` also clears the clickable seat map, because every section, the map included, is hidden.
- The schema file `db/schema.sqlite.sql` is not part of this model. A new booking's status is taken to default to confirmed, and the `available_seats` counters are taken to start equal to the live counts (`Store.Valid`).
- The payment route checks neither who owns the booking nor its status, and paying twice records two payments. The model keeps this as written.
- Api.StatusCode: states only that every error maps to a 4xx or 5xx status; the individual codes are the function's table itself.
- Client.CounterReachesServer: assumes the page's counter starts at "1"; the HTML markup that sets the initial text is not part of this model.
- Accounts.Authenticate: `verify` stands for `jwt.verify` on non-empty tokens only; an empty token is refused before `verify` is consulted, because `jwt.verify` rejects an empty token without looking at it. Expiry and signature checks are inside `verify`.
- Client.UpdatePassengerCount: renders an unreadable counter as `NaN` but does not state the digits rendered for a readable count; `Client.CounterTextRoundTrip` states that for the counts the page can show.

## Findings

| source | as written | input that shows it | evidently intended | confidence | as-written member | corrected member |
|---|---|---|---|---|---|---|
| backend/server.js:131 | the seat lookup `WHERE id = ? AND is_available = 1` ignores `flightId`, so a seat of another flight is booked: that flight's seat is taken while the requested flight's counter drops | a consistent database with flight 1 (seat 1) and flight 2 (seat 2), each counter 1; `POST /api/bookings` with `flightId` 1 and `seatId` 2 | refuse a seat that does not belong to the requested flight; with that check every booking keeps the database consistent (`Invariants.CreateBookingCheckedPreservesValid`) | not executed | Scenarios.ForeignSeatExample | Bookings.CreateBookingChecked |
| backend/server.js:172 | the cancel lookup `WHERE id = ? AND user_id = ?` ignores the status, so an already cancelled booking is cancelled again: its seat is freed and its flight's counter is raised a second time | the same database; book seat 1 of flight 1, then cancel booking 1 twice: flight 1's counter ends at 2 with one seat | refuse to cancel a booking that is not confirmed; with that check every cancellation keeps the database consistent (`Invariants.CancelBookingCheckedPreservesValid`) | not executed | Scenarios.DoubleCancelCounter | Bookings.CancelBookingChecked |

=== FILE: accounts.dfy ===
/** Authentication in backend/server.js: the bearer-token middleware, registration and login.
    Signing and verifying tokens (jsonwebtoken) and hashing passwords (bcryptjs) are
    foreign libraries; they enter as parameters: `verify` for `jwt.verify`,
    `hashed` for the output of `bcrypt.hash` and `matches` for `bcrypt.compare`. */
module Accounts {
  import opened Base
  import opened Text
  import opened Store
  import opened Api

  /** The payload `jwt.verify` hands to the route as `req.user`. */
  datatype Claims = Claims(id: Option<int>, email: string)

  /** `authHeader.split(' ')[1]`: the second space-separated word, if there is one. */
  function BearerToken(header: string): (r: Option<string>)
    ensures r.Some? <==> ' ' in header
    ensures r.Some? ==> ' ' !in r.value
    ensures r.Some? ==> SecondWord(header, r.value)
  {
    var words := Split(header, ' ');
    SplitSeveral(header, ' ');
    if |words| >= 2 then
      SecondWordOfSplit(header);
      Some(words[1])
    else None
  }

  /** `word` is what follows the first space of `header`, up to the next space or the end. */
  ghost predicate SecondWord(header: string, word: string) {
    exists i, j :: 0 <= i <= j <= |header| && ' ' !in header[..i]
      && header[i..j] == " " + word && (j == |header| || header[j] == ' ')
  }

  lemma SecondWordOfSplit(header: string)
    requires |Split(header, ' ')| >= 2
    ensures SecondWord(header, Split(header, ' ')[1])
  {
    var w := Split(header, ' ');
    SecondChunk(header, ' ');
    var rest :| header == w[0] + [' '] + w[1] + rest && (rest == [] || rest[0] == ' ');
    var i, j := |w[0]|, |w[0]| + 1 + |w[1]|;
    assert header[..i] == w[0];
    assert header[i..j] == " " + w[1];
    assert j == |header| || header[j] == rest[0];
  }

  /** `authenticateToken`: a missing or empty header is 401; a header without a second word
      (so `jwt.verify(undefined)`), with an empty second word (which `jwt.verify` refuses
      before looking at it) or whose token does not verify is 403. `verify` stands for
      `jwt.verify` on non-empty tokens. */
  function Authenticate(header: Option<string>, verify: string -> Option<Claims>): (r: Result<Claims, Error>)
    ensures header.None? || header == Some("") ==> r == Err(TokenRequired)
    ensures header.Some? && header.value != "" && ' ' !in header.value ==> r == Err(InvalidToken)
    ensures header.Some? && header.value != "" && BearerToken(header.value) == Some("") ==> r == Err(InvalidToken)
    ensures r.Ok? ==> header.Some? && BearerToken(header.value).Some? && BearerToken(header.value).value != ""
                      && verify(BearerToken(header.value).value) == Some(r.value)
    ensures header.Some? && BearerToken(header.value).Some? && BearerToken(header.value).value != ""
            && verify(BearerToken(header.value).value).Some?
            ==> r == Ok(verify(BearerToken(header.value).value).value)
    ensures r.Err? ==> r.error == TokenRequired || r.error == InvalidToken
  {
    if header.None? || header.value == "" then Err(TokenRequired)
    else match BearerToken(header.value)
      case None => Err(InvalidToken)
      case Some(token) =>
        if token == "" then Err(InvalidToken)
        else match verify(token)
        case None => Err(InvalidToken)
        case Some(claims) => Ok(claims)
  }

  /** The header the browser sends, `Bearer ${token}`, authenticates exactly as its token verifies. */
  lemma BearerRoundTrip(token: string, verify: string -> Option<Claims>)
    requires ' ' !in token
    ensures Authenticate(Some("Bearer " + token), verify)
      == if token == "" then Err(InvalidToken)
         else match verify(token) case None => Err(InvalidToken) case Some(c) => Ok(c)
  {
    var h := "Bearer " + token;
    assert h == "Bearer" + [' '] + token;
    SplitAppend("Bearer", token, ' ');
    SplitFree("Bearer", ' ');
    SplitFree(token, ' ');
  }

  // ---------------------------------------------------------------------------
  // POST /api/register
  // ---------------------------------------------------------------------------

  datatype Registration = Registration(
    username: string, email: string, password: string,
    firstName: string, lastName: string, phone: string)

  predicate Taken(db: Db, form: Registration) {
    exists k :: 0 <= k < |db.users| && (db.users[k].email == form.email || db.users[k].username == form.username)
  }

  /** The row `INSERT INTO users` adds for a registration. */
  function NewUser(db: Db, form: Registration, hashed: string): User {
    User(NextId(db.users, UserId), form.username, form.email, hashed,
         form.firstName, form.lastName, form.phone)
  }

  /** `POST /api/register`: refuse a taken email or username, otherwise add one user whose
      password column holds the hash. */
  function Register(db: Db, form: Registration, hashed: string): (r: (Result<(), Error>, Db))
    ensures Taken(db, form) ==> r == (Err(UserAlreadyExists), db)
    ensures !Taken(db, form) ==> r.0 == Ok(())
    ensures !Taken(db, form) ==>
      |r.1.users| == |db.users| + 1 && r.1 == db.(users := db.users + [r.1.users[|db.users|]])
    ensures !Taken(db, form) ==>
      var u := r.1.users[|db.users|];
      && u.username == form.username && u.email == form.email && u.passwordHash == hashed
      && u.firstName == form.firstName && u.lastName == form.lastName && u.phone == form.phone
      && (forall k :: 0 <= k < |db.users| ==> db.users[k].id < u.id)
  {
    match FindFirst(db.users, (u: User) => u.email == form.email || u.username == form.username)
    case Some(_) => (Err(UserAlreadyExists), db)
    case None => (Ok(()), db.(users := db.users + [NewUser(db, form, hashed)]))
  }

  /** Registration keeps the database consistent; in particular emails and usernames stay unique. */
  lemma RegisterPreservesValid(db: Db, form: Registration, hashed: string)
    requires Valid(db)
    ensures Valid(Register(db, form, hashed).1)
  {
    var db' := Register(db, form, hashed).1;
    if !Taken(db, form) {
      var u := NewUser(db, form, hashed);
      assert db'.users == db.users + [u];
      AppendFreshId(db.users, u, UserId);
      forall k | 0 <= k < |db.bookings|
        ensures HasUser(db', db.bookings[k].userId)
      {
        var j :| 0 <= j < |db.users| && db.users[j].id == db.bookings[k].userId;
        assert db'.users[j] == db.users[j];
      }
      forall j, k | 0 <= j < k < |db'.users|
        ensures db'.users[j].email != db'.users[k].email && db'.users[j].username != db'.users[k].username
      {
        if k == |db.users| {
          assert db'.users[j] == db.users[j];
        }
      }
    }
  }

  // ---------------------------------------------------------------------------
  // POST /api/login
  // ---------------------------------------------------------------------------

  /** The `user` object of a successful login (the signed token itself is not modelled). */
  datatype Profile = Profile(id: nat, username: string, email: string, firstName: string, lastName: string)

  function ProfileOf(u: User): Profile {
    Profile(u.id, u.username, u.email, u.firstName, u.lastName)
  }

  /** `POST /api/login`: the first user with that email, if the password matches its hash. */
  function Login(db: Db, email: string, password: string, matches: (string, string) -> bool): (r: Result<Profile, Error>)
    ensures r.Err? ==> r.error == InvalidCredentials
    ensures r.Ok? ==> exists k :: (0 <= k < |db.users| && db.users[k].email == email
      && matches(password, db.users[k].passwordHash) && r.value.id == db.users[k].id)
    ensures (forall k :: 0 <= k < |db.users| ==> db.users[k].email != email) ==> r.Err?
    ensures forall k :: 0 <= k < |db.users| && db.users[k].email == email
                        && (forall j :: 0 <= j < k ==> db.users[j].email != email) ==>
      && (r.Ok? <==> matches(password, db.users[k].passwordHash))
      && (r.Ok? ==> r.value == ProfileOf(db.users[k]))
  {
    match FindFirst(db.users, (u: User) => u.email == email)
    case None => Err(InvalidCredentials)
    case Some(k) =>
      var u := db.users[k];
      assert forall m :: (0 <= m < |db.users| && db.users[m].email == email
                          && (forall j :: 0 <= j < m ==> db.users[j].email != email)) ==> m == k;
      if !matches(password, u.passwordHash) then Err(InvalidCredentials)
      else Ok(ProfileOf(u))
  }

  /** After registering, logging in with the same email succeeds exactly when the password
      matches the stored hash, and yields the new account. */
  lemma LoginAfterRegister(db: Db, form: Registration, hashed: string, password: string, matches: (string, string) -> bool)
    requires !Taken(db, form)
    ensures var db' := Register(db, form, hashed).1;
      var r := Login(db', form.email, password, matches);
      && (r.Ok? <==> matches(password, hashed))
      && (r.Ok? ==> r.value.id == db'.users[|db.users|].id && r.value.username == form.username)
  {
    var db' := Register(db, form, hashed).1;
    var u := NewUser(db, form, hashed);
    assert db'.users == db.users + [u];
    var i := FindFirst(db'.users, (x: User) => x.email == form.email);
    assert db'.users[|db.users|].email == form.email;
    assert i == Some(|db.users|);
  }
}

=== FILE: api.dfy ===
/** The error responses of the HTTP API: each handler's `res.status(..).json({ error })`. */
module Api {

  datatype Error =
    | TokenRequired         // no Authorization header
    | InvalidToken          // jwt.verify failed
    | UserAlreadyExists     // registration with a taken email or username
    | InvalidCredentials    // unknown email or wrong password
    | MissingSearchFields   // search without departure, arrival or date
    | FlightNotFound
    | NotAuthenticated      // token payload without a user id
    | SeatNotAvailable
    | BookingNotFound
    | PdfFailed             // the confirmation document could not be written
    | InternalError         // an exception caught by the handler

  function StatusCode(e: Error): (code: nat)
    ensures 400 <= code < 600
  {
    match e
    case TokenRequired => 401
    case InvalidToken => 403
    case UserAlreadyExists => 400
    case InvalidCredentials => 400
    case MissingSearchFields => 400
    case FlightNotFound => 404
    case NotAuthenticated => 401
    case SeatNotAvailable => 400
    case BookingNotFound => 404
    case PdfFailed => 500
    case InternalError => 500
  }

  function Message(e: Error): string {
    match e
    case TokenRequired => "Access token required"
    case InvalidToken => "Invalid token"
    case UserAlreadyExists => "User already exists"
    case InvalidCredentials => "Invalid credentials"
    case MissingSearchFields => "Missing required search fields"
    case FlightNotFound => "Flight not found"
    case NotAuthenticated => "User not authenticated"
    case SeatNotAvailable => "Seat not available"
    case BookingNotFound => "Booking not found"
    case PdfFailed => "Failed to generate PDF"
    case InternalError => "Internal server error"
  }
}

=== FILE: base.dfy ===
/** Small failure-carrying wrappers shared by every module of the model. */
module Base {

  /** A value that may be absent: a SQL row that was not found, an unset form field. */
  datatype Option<+T> = None | Some(value: T)

  /** The outcome of a request handler: a response payload or an error response. */
  datatype Result<+T, +E> = Ok(value: T) | Err(error: E)
}

=== FILE: bookings.dfy ===
/** The booking routes of backend/server.js: `POST /api/bookings` and
    `PUT /api/bookings/:id/cancel`. Each runs inside BEGIN ... COMMIT and rolls back on
    every error path, so a failed call returns the database it was given. */
module Bookings {
  import opened Base
  import opened Store
  import opened Api

  datatype BookingRequest = BookingRequest(
    flightId: nat, seatId: nat,
    passengerName: string, passengerEmail: string, passengerPhone: string)

  /** The 201 body: `{ bookingId, bookingReference, totalAmount }`. */
  datatype Receipt = Receipt(bookingId: nat, bookingReference: string, totalAmount: real)

  /** `req.user && req.user.id`: the token payload carries a non-zero user id. */
  predicate Identified(user: Option<int>) {
    user.Some? && user.value != 0
  }

  predicate UserExists(db: Db, id: int) {
    exists k :: 0 <= k < |db.users| && db.users[k].id == id
  }

  /** Some row of `seats` has this id and is available. */
  predicate SeatFree(db: Db, seatId: nat) {
    exists k :: 0 <= k < |db.seats| && db.seats[k].id == seatId && db.seats[k].isAvailable
  }

  /** `SELECT * FROM seats WHERE id = ? AND is_available = 1` (no test on the flight). */
  function OpenSeat(db: Db, seatId: nat): Option<nat> {
    FindFirst(db.seats, (s: Seat) => s.id == seatId && s.isAvailable)
  }

  /** `SELECT * FROM flights WHERE id = ?`. */
  function FlightRow(db: Db, flightId: nat): Option<nat> {
    FindFirst(db.flights, (f: Flight) => f.id == flightId)
  }

  /** The three writes of a reservation: insert the booking, take its seat, decrement its flight. */
  function Reserved(db: Db, b: Booking): Db {
    db.(bookings := db.bookings + [b],
        seats := SetSeatAvailability(db.seats, b.seatId, false),
        flights := AdjustAvailableSeats(db.flights, b.flightId, -1))
  }

  /** The three writes of a cancellation: mark the booking cancelled, free its seat, increment its flight. */
  function Released(db: Db, b: Booking): Db {
    db.(bookings := SetBookingStatus(db.bookings, b.id, Cancelled),
        seats := SetSeatAvailability(db.seats, b.seatId, true),
        flights := AdjustAvailableSeats(db.flights, b.flightId, 1))
  }

  /** Exactly the changes a successful booking makes, and nothing else. */
  predicate BookingApplied(db: Db, db': Db, userId: int, req: BookingRequest, reference: string, receipt: Receipt) {
    && db'.users == db.users && db'.payments == db.payments
    // one new booking, appended after the old ones, with a fresh id
    && |db'.bookings| == |db.bookings| + 1
    && db'.bookings[..|db.bookings|] == db.bookings
    && var b := db'.bookings[|db.bookings|];
    && b.id == receipt.bookingId && b.userId == userId
    && b.flightId == req.flightId && b.seatId == req.seatId
    && b.reference == reference && b.totalAmount == receipt.totalAmount && b.status == Confirmed
    && b.passengerName == req.passengerName && b.passengerEmail == req.passengerEmail
    && b.passengerPhone == req.passengerPhone
    && (forall k :: 0 <= k < |db.bookings| ==> db.bookings[k].id < b.id)
    && receipt.bookingReference == reference
    // the seat is taken, and no other seat changes
    && |db'.seats| == |db.seats|
    && (forall k :: 0 <= k < |db.seats| ==>
          db'.seats[k] == if db.seats[k].id == req.seatId then db.seats[k].(isAvailable := false) else db.seats[k])
    // the flight's counter drops by one, and no other flight changes
    && |db'.flights| == |db.flights|
    && (forall k :: 0 <= k < |db.flights| ==>
          db'.flights[k] == if db.flights[k].id == req.flightId
                            then db.flights[k].(availableSeats := db.flights[k].availableSeats - 1)
                            else db.flights[k])
  }

  /** The checks of `POST /api/bookings` as written, and the booking row they lead to. The seat
      is looked up by id and availability only, so nothing ties it to `req.flightId`. A booking
      for a user id with no row fails the foreign key and rolls back with 500. */
  function Admit(db: Db, user: Option<int>, req: BookingRequest, reference: string): (r: Result<Booking, Error>)
    ensures !Identified(user) ==> r == Err(NotAuthenticated)
    ensures Identified(user) && !SeatFree(db, req.seatId) ==> r == Err(SeatNotAvailable)
    ensures Identified(user) && SeatFree(db, req.seatId) && !HasFlight(db, req.flightId)
      ==> r == Err(FlightNotFound)
    ensures Identified(user) && SeatFree(db, req.seatId) && HasFlight(db, req.flightId) && !UserExists(db, user.value)
      ==> r == Err(InternalError)
    ensures r.Ok? <==> Identified(user) && SeatFree(db, req.seatId) && HasFlight(db, req.flightId) && UserExists(db, user.value)
    ensures r.Ok? ==> r.value.userId == user.value
    ensures r.Ok? ==> r.value.flightId == req.flightId && r.value.seatId == req.seatId && r.value.status == Confirmed
    ensures r.Ok? ==> r.value.reference == reference
    ensures r.Ok? ==> r.value.passengerName == req.passengerName
    ensures r.Ok? ==> r.value.passengerEmail == req.passengerEmail
    ensures r.Ok? ==> r.value.passengerPhone == req.passengerPhone
    ensures r.Ok? ==> forall k :: 0 <= k < |db.bookings| ==> db.bookings[k].id < r.value.id
    ensures r.Ok? ==> exists i, j ::
      && 0 <= i < |db.flights| && db.flights[i].id == req.flightId
      && 0 <= j < |db.seats| && db.seats[j].id == req.seatId && db.seats[j].isAvailable
      && r.value.totalAmount == Fare(db.flights[i].price, db.seats[j].priceMultiplier)
  {
    if !Identified(user) then Err(NotAuthenticated)
    else match OpenSeat(db, req.seatId)
      case None => Err(SeatNotAvailable)
      case Some(j) =>
        match FlightRow(db, req.flightId)
        case None => Err(FlightNotFound)
        case Some(i) =>
          if !UserExists(db, user.value) then Err(InternalError)
          else
            var total := Fare(db.flights[i].price, db.seats[j].priceMultiplier);
            Ok(Booking(NextId(db.bookings, BookingId), user.value as nat, req.flightId, req.seatId, reference, total,
                       req.passengerName, req.passengerEmail, req.passengerPhone, Confirmed))
  }

  /** `POST /api/bookings` as written: `reference` is `'BK' + Date.now()`; the total is the
      flight's price times the seat's multiplier. */
  function CreateBooking(db: Db, user: Option<int>, req: BookingRequest, reference: string): (r: (Result<Receipt, Error>, Db))
    ensures !Identified(user) ==> r == (Err(NotAuthenticated), db)
    ensures Identified(user) && !SeatFree(db, req.seatId) ==> r == (Err(SeatNotAvailable), db)
    ensures Identified(user) && SeatFree(db, req.seatId) && !HasFlight(db, req.flightId)
      ==> r == (Err(FlightNotFound), db)
    ensures Identified(user) && SeatFree(db, req.seatId) && HasFlight(db, req.flightId) && !UserExists(db, user.value)
      ==> r == (Err(InternalError), db)
    ensures r.0.Err? ==> r.1 == db
    ensures r.0.Ok? <==> Identified(user) && SeatFree(db, req.seatId) && HasFlight(db, req.flightId) && UserExists(db, user.value)
    ensures r.0.Ok? ==> BookingApplied(db, r.1, user.value, req, reference, r.0.value)
    ensures r.0.Ok? ==> exists i, j ::
      && 0 <= i < |db.flights| && db.flights[i].id == req.flightId
      && 0 <= j < |db.seats| && db.seats[j].id == req.seatId && db.seats[j].isAvailable
      && r.0.value.totalAmount == Fare(db.flights[i].price, db.seats[j].priceMultiplier)
  {
    match Admit(db, user, req, reference)
    case Err(e) => (Err(e), db)
    case Ok(b) =>
      ReservedApplied(db, b, req);
      (Ok(Receipt(b.id, b.reference, b.totalAmount)), Reserved(db, b))
  }

  /** The writes of a reservation are exactly the changes `BookingApplied` describes. */
  lemma ReservedApplied(db: Db, b: Booking, req: BookingRequest)
    requires b.flightId == req.flightId && b.seatId == req.seatId && b.status == Confirmed
    requires b.passengerName == req.passengerName && b.passengerEmail == req.passengerEmail
    requires b.passengerPhone == req.passengerPhone
    requires forall k :: 0 <= k < |db.bookings| ==> db.bookings[k].id < b.id
    ensures BookingApplied(db, Reserved(db, b), b.userId, req, b.reference, Receipt(b.id, b.reference, b.totalAmount))
  {
    assert Reserved(db, b).bookings[..|db.bookings|] == db.bookings;
  }

  /** Some booking with this id belongs to this user. */
  predicate Owned(db: Db, bookingId: nat, userId: int) {
    exists k :: 0 <= k < |db.bookings| && db.bookings[k].id == bookingId && db.bookings[k].userId == userId
  }

  /** `SELECT * FROM bookings WHERE id = ? AND user_id = ?` (no test on the status). */
  function OwnedRow(db: Db, bookingId: nat, userId: int): Option<nat> {
    FindFirst(db.bookings, (b: Booking) => b.id == bookingId && b.userId == userId)
  }

  /** `PUT /api/bookings/:id/cancel` as written: any booking the user owns, whatever its status,
      is marked cancelled, its seat freed and its flight's counter raised by one. */
  function CancelBooking(db: Db, userId: int, bookingId: nat): (r: (Result<(), Error>, Db))
    ensures !Owned(db, bookingId, userId) ==> r == (Err(BookingNotFound), db)
    ensures Owned(db, bookingId, userId) ==> r.0 == Ok(())
    ensures r.0.Ok? ==> exists k ::
      && 0 <= k < |db.bookings|
      && db.bookings[k].id == bookingId && db.bookings[k].userId == userId
      && r.1 == Released(db, db.bookings[k])
    ensures r.0.Ok? ==> r.1.users == db.users && r.1.payments == db.payments
    ensures r.0.Ok? ==> |r.1.bookings| == |db.bookings|
    ensures r.0.Ok? ==> forall k :: 0 <= k < |db.bookings| ==>
      r.1.bookings[k] == if db.bookings[k].id == bookingId then db.bookings[k].(status := Cancelled) else db.bookings[k]
  {
    match OwnedRow(db, bookingId, userId)
    case None => (Err(BookingNotFound), db)
    case Some(k) => (Ok(()), Released(db, db.bookings[k]))
  }

  // ---------------------------------------------------------------------------
  // The corrected handlers
  // ---------------------------------------------------------------------------

  /** Some available seat with this id belongs to this flight. */
  predicate SeatFreeOn(db: Db, seatId: nat, flightId: nat) {
    exists k :: 0 <= k < |db.seats| && db.seats[k].id == seatId && db.seats[k].isAvailable
      && db.seats[k].flightId == flightId
  }

  /** `POST /api/bookings` with the seat query also requiring `flight_id = ?`: the checks and
      writes of the route as written, once the seat is known to be a free seat of that flight. */
  function CreateBookingChecked(db: Db, user: Option<int>, req: BookingRequest, reference: string): (r: (Result<Receipt, Error>, Db))
    ensures !Identified(user) ==> r == (Err(NotAuthenticated), db)
    ensures Identified(user) && !SeatFreeOn(db, req.seatId, req.flightId) ==> r == (Err(SeatNotAvailable), db)
    ensures r.0.Err? ==> r.1 == db
    ensures r.0.Ok? <==> Identified(user) && SeatFreeOn(db, req.seatId, req.flightId) && HasFlight(db, req.flightId)
                         && UserExists(db, user.value)
    ensures r.0.Ok? ==> BookingApplied(db, r.1, user.value, req, reference, r.0.value)
    ensures SeatFreeOn(db, req.seatId, req.flightId) ==> r == CreateBooking(db, user, req, reference)
  {
    if Identified(user) && !SeatFreeOn(db, req.seatId, req.flightId) then (Err(SeatNotAvailable), db)
    else
      assert SeatFreeOn(db, req.seatId, req.flightId) ==> SeatFree(db, req.seatId);
      CreateBooking(db, user, req, reference)
  }

  /** Some confirmed booking with this id belongs to this user. */
  predicate OwnedConfirmed(db: Db, bookingId: nat, userId: int) {
    exists k :: 0 <= k < |db.bookings| && db.bookings[k].id == bookingId && db.bookings[k].userId == userId
      && db.bookings[k].status == Confirmed
  }

  /** `SELECT * FROM bookings WHERE id = ? AND user_id = ? AND status = 'confirmed'`. */
  function ConfirmedOwnedRow(db: Db, bookingId: nat, userId: int): Option<nat> {
    FindFirst(db.bookings, (b: Booking) => b.id == bookingId && b.userId == userId && b.status == Confirmed)
  }

  /** `PUT /api/bookings/:id/cancel` with the lookup also requiring `status = 'confirmed'`:
      the owner's confirmed booking is marked cancelled, its seat freed and its flight's
      counter raised by one; anything else is a 404. */
  function CancelBookingChecked(db: Db, userId: int, bookingId: nat): (r: (Result<(), Error>, Db))
    ensures !OwnedConfirmed(db, bookingId, userId) ==> r == (Err(BookingNotFound), db)
    ensures OwnedConfirmed(db, bookingId, userId) ==> r.0 == Ok(())
    ensures r.0.Ok? ==> exists k ::
      && 0 <= k < |db.bookings|
      && db.bookings[k].id == bookingId && db.bookings[k].userId == userId && db.bookings[k].status == Confirmed
      && r.1 == Released(db, db.bookings[k])
    ensures r.0.Ok? ==> r.1.users == db.users && r.1.payments == db.payments
    ensures r.0.Ok? ==> |r.1.bookings| == |db.bookings|
    ensures r.0.Ok? ==> forall k :: 0 <= k < |db.bookings| ==>
      r.1.bookings[k] == if db.bookings[k].id == bookingId then db.bookings[k].(status := Cancelled) else db.bookings[k]
  {
    match ConfirmedOwnedRow(db, bookingId, userId)
    case None => (Err(BookingNotFound), db)
    case Some(k) => (Ok(()), Released(db, db.bookings[k]))
  }
}

=== FILE: client.dfy ===
/** The booking flow of the browser client (frontend/js/script.js, class `FlightBookingSystem`):
    the passenger counter, the return-date clamp, the price summary and the guards of the
    select-seat, proceed, book and pay steps. The DOM is reduced to the fields the guards
    read; server answers enter as parameters. */
module Client {
  import opened Base
  import opened Text
  import opened Store
  import opened Api
  import opened Bookings
  import opened Flights

  // ---------------------------------------------------------------------------
  // updatePassengerCount
  // ---------------------------------------------------------------------------

  /** The `data-action` of a passenger button. */
  datatype CounterAction = Increase | Decrease | OtherAction

  /** `if (action === "increase" && count < 9) count++; if (action === "decrease" && count > 1) count--;` */
  function Bump(count: int, action: CounterAction): int {
    var up := if action == Increase && count < 9 then count + 1 else count;
    if action == Decrease && up > 1 then up - 1 else up
  }

  /** How `Bump` moves the count: one step inside the bounds, never past them. */
  lemma BumpSteps(count: int, action: CounterAction)
    ensures 1 <= count <= 9 ==> 1 <= Bump(count, action) <= 9
    ensures action == Increase ==> Bump(count, action) == if count < 9 then count + 1 else count
    ensures action == Decrease ==> Bump(count, action) == if count > 1 then count - 1 else count
    ensures action == OtherAction ==> Bump(count, action) == count
  {
  }

  /** JavaScript's `String(n)` for an integer. */
  function IntText(n: int): (r: string)
    ensures |r| >= 1
  {
    if n < 0 then "-" + ToDecimal(-n) else ToDecimal(n)
  }

  /** `updatePassengerCount`: parse the counter's text, step it, write it back. A text that
      does not parse reads as NaN, which neither guard moves and which is written back as "NaN". */
  function UpdatePassengerCount(text: string, action: CounterAction): (r: string)
    ensures ParseInt(text).None? ==> r == "NaN"
  {
    match ParseInt(text)
    case None => "NaN"
    case Some(count) => IntText(Bump(count, action))
  }

  /** The counter's text always holds the number the counter stands for. */
  lemma {:induction false} CounterTextRoundTrip(count: nat, action: CounterAction)
    requires 1 <= count <= 9
    ensures UpdatePassengerCount(ToDecimal(count), action) == ToDecimal(Bump(count, action))
  {
    ParseIntToDecimal(count);
    BumpSteps(count, action);
  }

  /** The counter after a series of clicks. */
  function Clicks(count: int, actions: seq<CounterAction>): int
    decreases |actions|
  {
    if |actions| == 0 then count else Clicks(Bump(count, actions[0]), actions[1..])
  }

  /** The counter's text after a series of clicks. */
  function ClicksText(text: string, actions: seq<CounterAction>): string
    decreases |actions|
  {
    if |actions| == 0 then text else ClicksText(UpdatePassengerCount(text, actions[0]), actions[1..])
  }

  /** Started in range, the counter stays in 1..9 whatever is clicked. */
  lemma {:induction false} ClicksStayInRange(count: int, actions: seq<CounterAction>)
    requires 1 <= count <= 9
    ensures 1 <= Clicks(count, actions) <= 9
    decreases |actions|
  {
    if |actions| > 0 {
      BumpSteps(count, actions[0]);
      ClicksStayInRange(Bump(count, actions[0]), actions[1..]);
    }
  }

  /** Started in range, the counter's text is the decimal form of the counter after any clicks. */
  lemma {:induction false} ClicksTextAgree(count: nat, actions: seq<CounterAction>)
    requires 1 <= count <= 9
    ensures 1 <= Clicks(count, actions) <= 9
    ensures ClicksText(ToDecimal(count), actions) == ToDecimal(Clicks(count, actions))
    decreases |actions|
  {
    ClicksStayInRange(count, actions);
    if |actions| > 0 {
      CounterTextRoundTrip(count, actions[0]);
      BumpSteps(count, actions[0]);
      ClicksTextAgree(Bump(count, actions[0]), actions[1..]);
    }
  }

  /** The page starts the counter at 1; whatever is clicked, the search route reads the very
      count shown, a number from 1 to 9. */
  lemma CounterReachesServer(actions: seq<CounterAction>)
    ensures PassengerCount(Some(ClicksText(ToDecimal(1), actions))) == Clicks(1, actions)
    ensures 1 <= Clicks(1, actions) <= 9
  {
    ClicksTextAgree(1, actions);
    PassengerCountOfCounter(Clicks(1, actions));
  }

  // ---------------------------------------------------------------------------
  // validateReturnDate
  // ---------------------------------------------------------------------------

  /** `validateReturnDate`: with both dates set and the return before the departure (string
      order, which is date order for ISO dates), the return date becomes the departure date. */
  function ValidateReturnDate(departure: string, ret: string): (r: string)
    ensures departure != "" && ret != "" ==> !LexLt(r, departure)
    ensures r == departure || r == ret
    ensures !LexLt(ret, departure) ==> r == ret
    ensures departure == "" || ret == "" ==> r == ret
    ensures departure != "" && ret != "" && LexLt(ret, departure) ==> r == departure
  {
    if departure != "" && ret != "" && LexLt(ret, departure) then
      LexLeReflexive(departure);
      departure
    else ret
  }

  /** Clamping an already valid return date changes nothing. */
  lemma ValidateReturnDateIdempotent(departure: string, ret: string)
    ensures ValidateReturnDate(departure, ValidateReturnDate(departure, ret)) == ValidateReturnDate(departure, ret)
  {
    LexLeReflexive(departure);
  }

  // ---------------------------------------------------------------------------
  // updateBookingSummary
  // ---------------------------------------------------------------------------

  /** The total the summary displays, before rounding: with a seat, the flight's price times
      the seat's multiplier; without one the summary asks for a seat and shows no total. */
  function SummaryTotal(flight: Flight, seat: Option<SeatView>): (r: Option<real>)
    ensures r.Some? <==> seat.Some?
    ensures seat.Some? ==> r.value == Fare(flight.price, seat.value.priceMultiplier)
  {
    if seat.None? then None else Some(Fare(flight.price, seat.value.priceMultiplier))
  }

  /** The total the browser shows for a flight and seat it was served is the amount the booking
      route charges for them. */
  lemma SummaryMatchesServer(db: Db, user: Option<int>, req: BookingRequest, reference: string, f: nat, s: nat)
    requires KeysOrdered(db)
    requires f < |db.flights| && db.flights[f].id == req.flightId
    requires s < |db.seats| && db.seats[s].id == req.seatId
    requires CreateBooking(db, user, req, reference).0.Ok?
    ensures SummaryTotal(db.flights[f], Some(ViewOf(db.seats[s]))) == Some(CreateBooking(db, user, req, reference).0.value.totalAmount)
  {
    var i, j := ChargedRows(db, user, req, reference);
    IdsUnique(db.flights, FlightId, i, f);
    IdsUnique(db.seats, SeatId, j, s);
    assert ViewOf(db.seats[s]).priceMultiplier == db.seats[j].priceMultiplier;
    assert SummaryTotal(db.flights[f], Some(ViewOf(db.seats[s]))) == Some(Fare(db.flights[i].price, db.seats[j].priceMultiplier));
  }

  /** The flight and seat rows whose price and multiplier a successful booking multiplies. */
  lemma ChargedRows(db: Db, user: Option<int>, req: BookingRequest, reference: string) returns (i: nat, j: nat)
    requires CreateBooking(db, user, req, reference).0.Ok?
    ensures i < |db.flights| && db.flights[i].id == req.flightId
    ensures j < |db.seats| && db.seats[j].id == req.seatId
    ensures CreateBooking(db, user, req, reference).0.value.totalAmount == Fare(db.flights[i].price, db.seats[j].priceMultiplier)
  {
    i, j :| && 0 <= i < |db.flights| && db.flights[i].id == req.flightId
      && 0 <= j < |db.seats| && db.seats[j].id == req.seatId && db.seats[j].isAvailable
      && CreateBooking(db, user, req, reference).0.value.totalAmount == Fare(db.flights[i].price, db.seats[j].priceMultiplier);
  }

  // ---------------------------------------------------------------------------
  // The booking flow
  // ---------------------------------------------------------------------------

  /** The section the flow last revealed. */
  datatype Section = Results | SeatSelection | BookingForm | PaymentSection

  /** The client's state: the fields of `FlightBookingSystem` the flow reads, the clickable
      seats of the rendered map, the open section, whether the login modal is open, and the
      last alert shown. */
  datatype Ui = Ui(
    token: Option<string>,
    selectedFlight: Option<Flight>,
    seatMap: seq<SeatView>,
    selectedSeat: Option<SeatView>,
    currentBooking: Option<Receipt>,
    section: Section,
    loginShown: bool,
    alert: Option<string>)

  /** A fresh page with no stored login. */
  const Start := Ui(None, None, [], None, None, Results, false, None)

  /** What the user does, with the server's answer where the step awaits one. */
  datatype Event =
    | LoggedIn(token: string)
    | LoggedOut
    | SelectFlight(detail: Result<(Flight, seq<SeatView>), Error>)
    | ClickSeat(index: nat)
    | Proceed
    | SubmitBooking(answer: Result<Receipt, Error>)
    | SubmitPayment(paid: bool)

  /** `selectFlight`: on success the flight and its seat map replace the old ones; the seat
      selected before is left as it was. */
  function SelectFlightStep(ui: Ui, detail: Result<(Flight, seq<SeatView>), Error>): (r: Ui)
    ensures detail.Ok? ==> r.selectedFlight == Some(detail.value.0) && r.seatMap == detail.value.1
    ensures detail.Ok? ==> r.section == SeatSelection
    ensures r.selectedSeat == ui.selectedSeat && r.currentBooking == ui.currentBooking && r.token == ui.token
    ensures detail.Err? ==> r == ui.(alert := Some("Could not load seat map."))
  {
    match detail
    case Err(_) => ui.(alert := Some("Could not load seat map."))
    case Ok((flight, seats)) => ui.(selectedFlight := Some(flight), seatMap := seats, section := SeatSelection)
  }

  /** `renderSeatMap` attaches a click handler to available seats only, and `selectSeat`
      records the clicked seat. */
  function ClickSeatStep(ui: Ui, index: nat): (r: Ui)
    ensures r.selectedSeat != ui.selectedSeat ==>
      index < |ui.seatMap| && ui.seatMap[index].isAvailable && r.selectedSeat == Some(ui.seatMap[index])
    ensures index < |ui.seatMap| && ui.seatMap[index].isAvailable ==> r.selectedSeat == Some(ui.seatMap[index])
    ensures r.(selectedSeat := ui.selectedSeat) == ui
  {
    if index < |ui.seatMap| && ui.seatMap[index].isAvailable then ui.(selectedSeat := Some(ui.seatMap[index]))
    else ui
  }

  /** `proceedToBooking`: no seat, an alert; no token, the login modal; otherwise the passenger form. */
  function ProceedStep(ui: Ui): (r: Ui)
    ensures r.section == BookingForm <==> ui.section == BookingForm || (ui.selectedSeat.Some? && ui.token.Some?)
    ensures ui.selectedSeat.None? ==> r == ui.(alert := Some("Select a seat first!"))
    ensures ui.selectedSeat.Some? && ui.token.None? ==> r == ui.(loginShown := true)
  {
    if ui.selectedSeat.None? then ui.(alert := Some("Select a seat first!"))
    else if ui.token.None? then ui.(loginShown := true)
    else ui.(section := BookingForm)
  }

  /** The request `createBooking` sends: the selected flight's id and the selected seat's id. */
  function Payload(flight: Flight, seat: SeatView, name: string, email: string, phone: string): BookingRequest {
    BookingRequest(flight.id, seat.id, name, email, phone)
  }

  /** `createBooking`: without a selected flight or seat the payload cannot be built and the
      handler throws before sending; otherwise a 201 answer becomes the current booking and
      opens the payment section. */
  function SubmitBookingStep(ui: Ui, answer: Result<Receipt, Error>): (r: Ui)
    ensures ui.selectedFlight.None? || ui.selectedSeat.None? ==> r == ui
    ensures r.currentBooking != ui.currentBooking ==> answer.Ok? && r.currentBooking == Some(answer.value)
    ensures r.section == PaymentSection ==> ui.section == PaymentSection || (answer.Ok? && r.currentBooking == Some(answer.value))
  {
    if ui.selectedFlight.None? || ui.selectedSeat.None? then ui
    else match answer
      case Err(_) => ui.(alert := Some("Booking failed."))
      case Ok(receipt) => ui.(currentBooking := Some(receipt), section := PaymentSection)
  }

  /** `resetFlow`: forget the flight, the seat and the booking, hide every section but the results. */
  function ResetFlow(ui: Ui): (r: Ui)
    ensures r.selectedFlight.None? && r.selectedSeat.None? && r.currentBooking.None?
    ensures r.token == ui.token
  {
    ui.(selectedFlight := None, seatMap := [], selectedSeat := None, currentBooking := None, section := Results)
  }

  /** `processPayment`: refused without a current booking; a successful payment resets the flow. */
  function SubmitPaymentStep(ui: Ui, paid: bool): (r: Ui)
    ensures ui.currentBooking.None? ==> r == ui.(alert := Some("No booking data found"))
    ensures ui.currentBooking.Some? && !paid ==> r == ui.(alert := Some("Payment failed."))
    ensures ui.currentBooking.Some? && paid ==> r.currentBooking.None? && r.section == Results
  {
    if ui.currentBooking.None? then ui.(alert := Some("No booking data found"))
    else if !paid then ui.(alert := Some("Payment failed."))
    else ResetFlow(ui).(alert := Some("Payment successful! Confirmation sent to your email."))
  }

  function Step(ui: Ui, e: Event): Ui {
    match e
    case LoggedIn(t) => ui.(token := Some(t), loginShown := false)
    case LoggedOut => ui.(token := None)
    case SelectFlight(detail) => SelectFlightStep(ui, detail)
    case ClickSeat(k) => ClickSeatStep(ui, k)
    case Proceed => ProceedStep(ui)
    case SubmitBooking(answer) => SubmitBookingStep(ui, answer)
    case SubmitPayment(paid) => SubmitPaymentStep(ui, paid)
  }

  function Run(ui: Ui, events: seq<Event>): Ui
    decreases |events|
  {
    if |events| == 0 then ui else Run(Step(ui, events[0]), events[1..])
  }

  /** What the guards keep true: a selected seat was available when clicked and comes with a
      selected flight; the passenger form is only open with a seat selected; the payment
      section only with a booking. */
  predicate Consistent(ui: Ui) {
    && (ui.selectedSeat.Some? ==> ui.selectedSeat.value.isAvailable && ui.selectedFlight.Some?)
    && (|ui.seatMap| > 0 ==> ui.selectedFlight.Some?)
    && (ui.section == BookingForm ==> ui.selectedSeat.Some?)
    && (ui.section == PaymentSection ==> ui.currentBooking.Some?)
  }

  lemma StepConsistent(ui: Ui, e: Event)
    requires Consistent(ui)
    ensures Consistent(Step(ui, e))
  {
    match e
    case LoggedIn(_) =>
    case LoggedOut =>
    case SelectFlight(detail) =>
    case ClickSeat(k) =>
    case Proceed =>
    case SubmitBooking(answer) =>
    case SubmitPayment(paid) =>
  }

  /** Every run of the page from the start keeps the flow consistent. */
  lemma {:induction false} RunConsistent(ui: Ui, events: seq<Event>)
    requires Consistent(ui)
    ensures Consistent(Run(ui, events))
    decreases |events|
  {
    if |events| > 0 {
      StepConsistent(ui, events[0]);
      RunConsistent(Step(ui, events[0]), events[1..]);
    }
  }

  /** Selecting a second flight keeps the seat chosen on the first: proceeding then books the
      new flight with a seat of the old one, the request `CreateBooking` accepts without
      checking that the seat belongs to the flight. */
  lemma StaleSeatReachesBooking(ui: Ui, other: Flight, seats: seq<SeatView>, name: string, email: string, phone: string)
    requires Consistent(ui) && ui.selectedSeat.Some? && ui.token.Some?
    ensures var r := Run(ui, [SelectFlight(Ok((other, seats))), Proceed]);
      && r.section == BookingForm
      && r.selectedFlight == Some(other) && r.selectedSeat == ui.selectedSeat
      && Payload(r.selectedFlight.value, r.selectedSeat.value, name, email, phone)
         == BookingRequest(other.id, ui.selectedSeat.value.id, name, email, phone)
  {
    var r1 := Step(ui, SelectFlight(Ok((other, seats))));
    assert Run(ui, [SelectFlight(Ok((other, seats))), Proceed]) == Run(r1, [Proceed]);
    assert Run(r1, [Proceed]) == Step(r1, Proceed);
  }
}

=== FILE: flights.dfy ===
/** The read-only flight routes of backend/server.js: `GET /api/flights/search` and
    `GET /api/flights/:id`. */
module Flights {
  import opened Base
  import opened Text
  import opened Store
  import opened Api

  /** One search result row: the flight's columns plus `available_seats_count`. */
  datatype FlightHit = FlightHit(flight: Flight, availableSeatsCount: nat)

  /** A query parameter JavaScript treats as false: absent or the empty string. */
  predicate Missing(param: Option<string>) {
    param.None? || param.value == ""
  }

  /** `parseInt(passengers) || 1`: NaN and zero fall back to one; anything else, negative
      numbers included, is taken as read. An absent parameter reads as NaN. */
  function PassengerCount(passengers: Option<string>): (n: int)
    ensures n != 0
    ensures passengers.None? ==> n == 1
    ensures passengers.Some? && ParseInt(passengers.value).Some? && ParseInt(passengers.value).value != 0
            ==> n == ParseInt(passengers.value).value
    ensures passengers.Some? && (ParseInt(passengers.value).None? || ParseInt(passengers.value) == Some(0))
            ==> n == 1
  {
    var parsed := if passengers.None? then None else ParseInt(passengers.value);
    match parsed
    case None => 1
    case Some(v) => if v == 0 then 1 else v
  }

  /** The passenger counts the browser can send (its counter renders 1 to 9) reach the server intact. */
  lemma PassengerCountOfCounter(count: nat)
    requires count >= 1
    ensures PassengerCount(Some(ToDecimal(count))) == count
  {
    ParseIntToDecimal(count);
  }

  /** `LOWER(stored) = LOWER(query.trim())`: only the query is trimmed, only ASCII letters fold. */
  predicate CityMatches(stored: string, query: string) {
    Lower(stored) == Lower(Trim(query))
  }

  /** A flight with its live count of available seats. */
  function Hit(db: Db, f: Flight): FlightHit {
    FlightHit(f, CountAvailable(db.seats, f.id))
  }

  /** The search predicate: both cities match and enough seats are free right now. */
  predicate Qualifies(db: Db, h: FlightHit, departure: string, arrival: string, count: int) {
    && CityMatches(h.flight.departureCity, departure)
    && CityMatches(h.flight.arrivalCity, arrival)
    && h.availableSeatsCount == CountAvailable(db.seats, h.flight.id)
    && h.availableSeatsCount >= count
  }

  /** Every flight of the table with its live count: the grouped LEFT JOIN of flights and seats. */
  function Hits(db: Db): (r: seq<FlightHit>)
    ensures |r| == |db.flights|
    ensures forall k :: 0 <= k < |r| ==> r[k].flight == db.flights[k]
    ensures forall k :: 0 <= k < |r| ==> r[k].availableSeatsCount == |Select(db.seats, FreeSeatOf(db.flights[k].id))|
    ensures forall k :: 0 <= k < |r| ==> r[k] == Hit(db, db.flights[k])
  {
    forall k | 0 <= k < |db.flights| {
      CountAvailableSelect(db.seats, db.flights[k].id);
    }
    seq(|db.flights|, k requires 0 <= k < |db.flights| => Hit(db, db.flights[k]))
  }

  // ---------------------------------------------------------------------------
  // ORDER BY f.departure_time ASC
  // ---------------------------------------------------------------------------

  predicate DepartsNoLater(a: FlightHit, b: FlightHit) {
    LexLe(a.flight.departureTime, b.flight.departureTime)
  }

  /** Each row departs no later than the next. */
  predicate Ordered(hs: seq<FlightHit>) {
    forall k :: 0 < k < |hs| ==> DepartsNoLater(hs[k - 1], hs[k])
  }

  /** Each row departs no later than every row after it. */
  predicate SortedByDeparture(hs: seq<FlightHit>) {
    forall j, k :: 0 <= j < k < |hs| ==> DepartsNoLater(hs[j], hs[k])
  }

  lemma {:induction false} OrderedIsSorted(hs: seq<FlightHit>)
    requires Ordered(hs)
    ensures SortedByDeparture(hs)
  {
    if |hs| > 1 {
      OrderedIsSorted(hs[1..]);
      forall j, k | 0 <= j < k < |hs|
        ensures DepartsNoLater(hs[j], hs[k])
      {
        if j == 0 && k > 1 {
          assert DepartsNoLater(hs[1..][0], hs[1..][k - 1]);
          LexLeTransitive(hs[0].flight.departureTime, hs[1].flight.departureTime, hs[k].flight.departureTime);
        } else if j > 0 {
          assert DepartsNoLater(hs[1..][j - 1], hs[1..][k - 1]);
        }
      }
    }
  }

  function Insert(h: FlightHit, hs: seq<FlightHit>): (r: seq<FlightHit>)
    requires Ordered(hs)
    ensures Ordered(r)
    ensures |r| == |hs| + 1
    ensures r[0] == h || (|hs| > 0 && r[0] == hs[0])
    ensures multiset(r) == multiset(hs) + multiset{h}
  {
    if |hs| == 0 then [h]
    else if DepartsNoLater(h, hs[0]) then [h] + hs
    else
      var rest := Insert(h, hs[1..]);
      LexLeTotal(h.flight.departureTime, hs[0].flight.departureTime);
      assert hs == [hs[0]] + hs[1..];
      [hs[0]] + rest
  }

  /** Orders the rows by departure time. The model breaks ties by table order; `ORDER BY
      departure_time` leaves the order of equal times unspecified, and no contract here relies
      on the model's choice. */
  function SortByDeparture(hs: seq<FlightHit>): (r: seq<FlightHit>)
    ensures Ordered(r)
    ensures multiset(r) == multiset(hs)
  {
    if |hs| == 0 then []
    else
      assert hs == [hs[0]] + hs[1..];
      Insert(hs[0], SortByDeparture(hs[1..]))
  }

  /** The qualifying rows of the grouped join, in table order, before sorting. */
  function Matches(db: Db, departure: string, arrival: string, count: int): seq<FlightHit> {
    Select(Hits(db), (h: FlightHit) => Qualifies(db, h, departure, arrival, count))
  }

  /** The qualifying rows are exactly the grouped rows that pass the city match and the seat-count filter. */
  lemma MatchesMembers(db: Db, departure: string, arrival: string, count: int)
    ensures forall h :: h in Matches(db, departure, arrival, count) ==>
      h.flight in db.flights && Qualifies(db, h, departure, arrival, count)
    ensures forall k :: 0 <= k < |db.flights| ==>
      Qualifies(db, Hit(db, db.flights[k]), departure, arrival, count)
      ==> Hit(db, db.flights[k]) in Matches(db, departure, arrival, count)
  {
  }

  /** `GET /api/flights/search`: every flight whose cities match and whose live count of
      available seats reaches the passenger count, earliest departure first. The `date`
      parameter is required but never used to filter. */
  function Search(db: Db, departure: Option<string>, arrival: Option<string>,
                  date: Option<string>, passengers: Option<string>): (r: Result<seq<FlightHit>, Error>)
    ensures r.Err? <==> Missing(departure) || Missing(arrival) || Missing(date)
    ensures r.Err? ==> r.error == MissingSearchFields
    ensures r.Ok? ==> SortedByDeparture(r.value)
    ensures r.Ok? ==> multiset(r.value) == multiset(Matches(db, departure.value, arrival.value, PassengerCount(passengers)))
    ensures r.Ok? ==> forall h :: h in r.value ==>
      h.flight in db.flights && Qualifies(db, h, departure.value, arrival.value, PassengerCount(passengers))
    ensures r.Ok? ==> forall k :: 0 <= k < |db.flights| ==>
      Qualifies(db, Hit(db, db.flights[k]), departure.value, arrival.value, PassengerCount(passengers))
      ==> Hit(db, db.flights[k]) in r.value
  {
    if Missing(departure) || Missing(arrival) || Missing(date) then Err(MissingSearchFields)
    else
      var count := PassengerCount(passengers);
      var hits := Matches(db, departure.value, arrival.value, count);
      var sorted := SortByDeparture(hits);
      OrderedIsSorted(sorted);
      SameElements(sorted, hits);
      MatchesMembers(db, departure.value, arrival.value, count);
      Ok(sorted)
  }

  lemma SameElements(a: seq<FlightHit>, b: seq<FlightHit>)
    requires multiset(a) == multiset(b)
    ensures forall h :: h in a <==> h in b
  {
    forall h
      ensures h in a <==> h in b
    {
      assert h in a <==> h in multiset(a);
      assert h in b <==> h in multiset(b);
    }
  }

  /** The search does not depend on the date: any two dates give the same answer. */
  lemma SearchIgnoresDate(db: Db, departure: Option<string>, arrival: Option<string>,
                          d1: string, d2: string, passengers: Option<string>)
    requires d1 != "" && d2 != ""
    ensures Search(db, departure, arrival, Some(d1), passengers) == Search(db, departure, arrival, Some(d2), passengers)
  {
  }

  // ---------------------------------------------------------------------------
  // GET /api/flights/:id
  // ---------------------------------------------------------------------------

  /** `SELECT id, seat_number, class, is_available, price_multiplier FROM seats WHERE flight_id = ?`. */
  function SeatsOf(seats: seq<Seat>, flightId: nat): (r: seq<SeatView>)
    ensures forall v :: v in r ==> exists k :: 0 <= k < |seats| && seats[k].flightId == flightId && ViewOf(seats[k]) == v
    ensures forall k :: 0 <= k < |seats| && seats[k].flightId == flightId ==> ViewOf(seats[k]) in r
  {
    if |seats| == 0 then []
    else
      var rest := SeatsOf(seats[1..], flightId);
      assert forall v :: v in rest ==> exists k :: 0 <= k < |seats| && seats[k].flightId == flightId && ViewOf(seats[k]) == v by {
        forall v | v in rest
          ensures exists k :: 0 <= k < |seats| && seats[k].flightId == flightId && ViewOf(seats[k]) == v
        {
          var j :| 0 <= j < |seats[1..]| && seats[1..][j].flightId == flightId && ViewOf(seats[1..][j]) == v;
          assert seats[j + 1] == seats[1..][j];
        }
      }
      (if seats[0].flightId == flightId then [ViewOf(seats[0])] else []) + rest
  }

  /** `GET /api/flights/:id`: the flight and its seats, or 404. */
  function FlightDetail(db: Db, flightId: nat): (r: Result<(Flight, seq<SeatView>), Error>)
    ensures r.Err? <==> !HasFlight(db, flightId)
    ensures r.Err? ==> r.error == FlightNotFound
    ensures r.Ok? ==> r.value.0 in db.flights && r.value.0.id == flightId
    ensures r.Ok? ==> forall v :: v in r.value.1 <==>
      exists k :: 0 <= k < |db.seats| && db.seats[k].flightId == flightId && ViewOf(db.seats[k]) == v
  {
    match FindFirst(db.flights, (f: Flight) => f.id == flightId)
    case None => Err(FlightNotFound)
    case Some(i) => Ok((db.flights[i], SeatsOf(db.seats, flightId)))
  }

  predicate ViewsAscending(vs: seq<SeatView>) {
    forall j, k :: 0 <= j < k < |vs| ==> vs[j].id < vs[k].id
  }

  /** `ORDER BY id ASC`: a table kept in id order yields its seats in id order. */
  lemma {:induction false} SeatsOfAscending(seats: seq<Seat>, flightId: nat)
    requires IdsAscending(seats, SeatId)
    ensures ViewsAscending(SeatsOf(seats, flightId))
  {
    if |seats| > 0 {
      var rest := SeatsOf(seats[1..], flightId);
      assert IdsAscending(seats[1..], SeatId) by {
        forall j, k | 0 <= j < k < |seats[1..]|
          ensures SeatId(seats[1..][j]) < SeatId(seats[1..][k])
        {
          assert seats[1..][j] == seats[j + 1] && seats[1..][k] == seats[k + 1];
        }
      }
      SeatsOfAscending(seats[1..], flightId);
      if seats[0].flightId == flightId {
        forall k | 0 <= k < |rest|
          ensures seats[0].id < rest[k].id
        {
          SeatsOfTail(seats, flightId, rest[k]);
        }
      }
    }
  }

  /** Every seat listed from the tail of the table comes from the tail. */
  lemma SeatsOfTail(seats: seq<Seat>, flightId: nat, v: SeatView)
    requires |seats| > 0
    requires IdsAscending(seats, SeatId)
    requires v in SeatsOf(seats[1..], flightId)
    ensures seats[0].id < v.id
  {
    var j :| 0 <= j < |seats[1..]| && seats[1..][j].flightId == flightId && ViewOf(seats[1..][j]) == v;
    assert seats[1..][j] == seats[j + 1];
    assert SeatId(seats[0]) < SeatId(seats[j + 1]);
  }
}

=== FILE: invariants.dfy ===
/** What the booking routes do to a consistent database (`Store.Valid`): the corrected
    handlers keep it consistent on every input; the handlers as written keep it consistent
    only when the request is well-behaved, and otherwise break the seat counters. */
module Invariants {
  import opened Base
  import opened Store
  import opened Bookings

  // ---------------------------------------------------------------------------
  // Frames: rewriting non-key columns keeps every foreign key target
  // ---------------------------------------------------------------------------

  /** `db'` has the same users, and the same flight, seat and booking ids (more bookings may follow). */
  predicate KeysKept(db: Db, db': Db) {
    && db'.users == db.users
    && |db'.flights| == |db.flights|
    && (forall k :: 0 <= k < |db.flights| ==> db'.flights[k].id == db.flights[k].id)
    && |db'.seats| == |db.seats|
    && (forall k :: 0 <= k < |db.seats| ==> db'.seats[k].id == db.seats[k].id && db'.seats[k].flightId == db.seats[k].flightId)
    && |db'.bookings| >= |db.bookings|
    && (forall k :: 0 <= k < |db.bookings| ==>
          && db'.bookings[k].id == db.bookings[k].id && db'.bookings[k].userId == db.bookings[k].userId
          && db'.bookings[k].flightId == db.bookings[k].flightId && db'.bookings[k].seatId == db.bookings[k].seatId)
    && db'.payments == db.payments
  }

  lemma HasKept(db: Db, db': Db)
    requires KeysKept(db, db')
    ensures forall x :: HasUser(db, x) ==> HasUser(db', x)
    ensures forall x :: HasFlight(db, x) ==> HasFlight(db', x)
    ensures forall x :: HasSeat(db, x) ==> HasSeat(db', x)
    ensures forall x :: HasBooking(db, x) ==> HasBooking(db', x)
  {
    forall x | HasFlight(db, x) ensures HasFlight(db', x) {
      var k :| 0 <= k < |db.flights| && db.flights[k].id == x;
      assert db'.flights[k].id == x;
    }
    forall x | HasSeat(db, x) ensures HasSeat(db', x) {
      var k :| 0 <= k < |db.seats| && db.seats[k].id == x;
      assert db'.seats[k].id == x;
    }
    forall x | HasBooking(db, x) ensures HasBooking(db', x) {
      var k :| 0 <= k < |db.bookings| && db.bookings[k].id == x;
      assert db'.bookings[k].id == x;
    }
  }

  /** Rewriting non-key columns keeps every table in id order and every old reference valid. */
  lemma {:induction false} KeptOrderAndReferences(db: Db, db': Db)
    requires KeyOrderedAndReferenced(db)
    requires KeysKept(db, db')
    requires |db'.bookings| == |db.bookings|
    ensures KeysOrdered(db')
    ensures References(db')
  {
    HasKept(db, db');
    assert IdsAscending(db'.flights, FlightId) by {
      forall j, k | 0 <= j < k < |db'.flights| ensures FlightId(db'.flights[j]) < FlightId(db'.flights[k]) {
        assert FlightId(db.flights[j]) < FlightId(db.flights[k]);
      }
    }
    assert IdsAscending(db'.seats, SeatId) by {
      forall j, k | 0 <= j < k < |db'.seats| ensures SeatId(db'.seats[j]) < SeatId(db'.seats[k]) {
        assert SeatId(db.seats[j]) < SeatId(db.seats[k]);
      }
    }
    assert IdsAscending(db'.bookings, BookingId) by {
      forall j, k | 0 <= j < k < |db'.bookings| ensures BookingId(db'.bookings[j]) < BookingId(db'.bookings[k]) {
        assert BookingId(db.bookings[j]) < BookingId(db.bookings[k]);
      }
    }
    forall k | 0 <= k < |db'.seats| ensures HasFlight(db', db'.seats[k].flightId) {
      assert HasFlight(db, db.seats[k].flightId);
    }
    forall k | 0 <= k < |db'.bookings|
      ensures HasUser(db', db'.bookings[k].userId) && HasFlight(db', db'.bookings[k].flightId)
        && HasSeat(db', db'.bookings[k].seatId)
    {
      assert HasUser(db, db.bookings[k].userId) && HasFlight(db, db.bookings[k].flightId) && HasSeat(db, db.bookings[k].seatId);
    }
    forall k | 0 <= k < |db'.payments| ensures HasBooking(db', db'.payments[k].bookingId) {
      assert HasBooking(db, db.payments[k].bookingId);
    }
  }

  predicate KeyOrderedAndReferenced(db: Db) {
    KeysOrdered(db) && References(db)
  }

  // ---------------------------------------------------------------------------
  // A reservation
  // ---------------------------------------------------------------------------

  /** The facts `POST /api/bookings` establishes before writing: seat `i` has the booked id and
      is free, the user and flight exist, and the new booking is confirmed under a fresh id. */
  predicate CanReserve(db: Db, b: Booking, i: nat) {
    && i < |db.seats| && db.seats[i].id == b.seatId && db.seats[i].isAvailable
    && HasUser(db, b.userId) && HasFlight(db, b.flightId)
    && b.status == Confirmed
    && (forall k :: 0 <= k < |db.bookings| ==> db.bookings[k].id < b.id)
  }

  lemma ReservedKeysKept(db: Db, b: Booking)
    ensures KeysKept(db, Reserved(db, b))
  {
  }

  /** A reservation keeps every table in id order. */
  lemma ReserveOrder(db: Db, b: Booking, i: nat)
    requires Valid(db) && CanReserve(db, b, i)
    ensures KeysOrdered(Reserved(db, b))
  {
    var mid := Reserved(db, b).(bookings := db.bookings);
    ReservedKeysKept(db, b);
    KeptOrderAndReferences(db, mid);
    AppendFreshId(db.bookings, b, BookingId);
  }

  /** After a reservation every booking, old or new, names an existing user, flight and seat. */
  lemma {:induction false} ReserveBookingReferences(db: Db, b: Booking, i: nat)
    requires References(db) && CanReserve(db, b, i)
    ensures var db' := Reserved(db, b);
      forall k :: 0 <= k < |db'.bookings| ==>
        HasUser(db', db'.bookings[k].userId) && HasFlight(db', db'.bookings[k].flightId)
        && HasSeat(db', db'.bookings[k].seatId)
  {
    var db' := Reserved(db, b);
    ReservedKeysKept(db, b);
    HasKept(db, db');
    assert HasSeat(db', b.seatId) by { assert db'.seats[i].id == b.seatId; }
    forall k | 0 <= k < |db'.bookings|
      ensures HasUser(db', db'.bookings[k].userId) && HasFlight(db', db'.bookings[k].flightId)
        && HasSeat(db', db'.bookings[k].seatId)
    {
      if k < |db.bookings| {
        assert db'.bookings[k] == db.bookings[k];
        assert HasUser(db, db.bookings[k].userId) && HasFlight(db, db.bookings[k].flightId) && HasSeat(db, db.bookings[k].seatId);
      }
    }
  }

  /** After a reservation of a seat of the booked flight, every booking's flight is its seat's flight. */
  lemma ReserveSeatFlights(db: Db, b: Booking, i: nat)
    requires Valid(db) && CanReserve(db, b, i)
    requires db.seats[i].flightId == b.flightId
    ensures var db' := Reserved(db, b);
      forall k, j :: 0 <= k < |db'.bookings| && 0 <= j < |db'.seats| && db'.seats[j].id == db'.bookings[k].seatId
        ==> db'.seats[j].flightId == db'.bookings[k].flightId
  {
    var db' := Reserved(db, b);
    forall k, j | 0 <= k < |db'.bookings| && 0 <= j < |db'.seats| && db'.seats[j].id == db'.bookings[k].seatId
      ensures db'.seats[j].flightId == db'.bookings[k].flightId
    {
      if k == |db.bookings| {
        IdsUnique(db.seats, SeatId, i, j);
      } else {
        assert db'.bookings[k] == db.bookings[k];
      }
    }
  }

  /** A reservation keeps ids ordered and every reference valid, provided the seat is the flight's. */
  lemma ReserveOrderAndReferences(db: Db, b: Booking, i: nat)
    requires Valid(db) && CanReserve(db, b, i)
    requires db.seats[i].flightId == b.flightId
    ensures KeysOrdered(Reserved(db, b)) && References(Reserved(db, b))
  {
    var db' := Reserved(db, b);
    ReserveOrder(db, b, i);
    ReserveBookingReferences(db, b, i);
    ReserveSeatFlights(db, b, i);
    ReservedKeysKept(db, b);
    HasKept(db, db');
    forall k | 0 <= k < |db'.seats| ensures HasFlight(db', db'.seats[k].flightId) {
      assert HasFlight(db, db.seats[k].flightId);
    }
    forall k | 0 <= k < |db'.payments| ensures HasBooking(db', db'.payments[k].bookingId) {
      assert HasBooking(db, db.payments[k].bookingId);
    }
  }

  /** A reservation of a seat of the booked flight keeps every counter equal to the live count. */
  lemma ReserveCounters(db: Db, b: Booking, i: nat)
    requires Valid(db) && CanReserve(db, b, i)
    requires db.seats[i].flightId == b.flightId
    ensures CountersMatch(Reserved(db, b))
  {
    var db' := Reserved(db, b);
    IdsDistinct(db.seats, SeatId, i);
    forall k | 0 <= k < |db'.flights|
      ensures db'.flights[k].availableSeats == CountAvailable(db'.seats, db'.flights[k].id)
    {
      CountAfterSetSeat(db.seats, i, false, db.flights[k].id);
    }
  }

  /** A reservation makes the free seat held by exactly the new booking. */
  lemma ReserveHolds(db: Db, b: Booking, i: nat)
    requires Valid(db) && CanReserve(db, b, i)
    ensures SeatsMatchBookings(Reserved(db, b))
  {
    var db' := Reserved(db, b);
    forall k | 0 <= k < |db'.seats|
      ensures ConfirmedFor(db'.bookings, db'.seats[k].id) == if db'.seats[k].isAvailable then 0 else 1
    {
      ConfirmedAfterAppend(db.bookings, b, db.seats[k].id);
      if db.seats[k].id == b.seatId {
        IdsUnique(db.seats, SeatId, k, i);
      }
    }
  }

  lemma ReservePreservesValid(db: Db, b: Booking, i: nat)
    requires Valid(db) && CanReserve(db, b, i)
    requires db.seats[i].flightId == b.flightId
    ensures Valid(Reserved(db, b))
  {
    ReserveOrderAndReferences(db, b, i);
    ReserveCounters(db, b, i);
    ReserveHolds(db, b, i);
  }

  /** Reserving a seat of another flight: the booked flight's counter drops but none of its
      seats was taken, so the counter no longer matches the live count. */
  lemma ReserveForeignSeatBreaksCounters(db: Db, b: Booking, i: nat)
    requires Valid(db) && CanReserve(db, b, i)
    requires db.seats[i].flightId != b.flightId
    ensures !CountersMatch(Reserved(db, b))
  {
    var db' := Reserved(db, b);
    var f :| 0 <= f < |db.flights| && db.flights[f].id == b.flightId;
    IdsDistinct(db.seats, SeatId, i);
    CountAfterSetSeat(db.seats, i, false, b.flightId);
    assert db'.flights[f].availableSeats == CountAvailable(db'.seats, db'.flights[f].id) - 1;
  }

  // ---------------------------------------------------------------------------
  // POST /api/bookings
  // ---------------------------------------------------------------------------

  /** Every seat with this id belongs to this flight: what the browser sends, since it offers
      only the seats of the flight it booked. */
  predicate SeatOnFlight(db: Db, seatId: nat, flightId: nat) {
    forall k :: 0 <= k < |db.seats| && db.seats[k].id == seatId ==> db.seats[k].flightId == flightId
  }

  /** The booking that a successful `CreateBooking` appends, and the seat row it found. */
  lemma CreateBookingIsReserve(db: Db, user: Option<int>, req: BookingRequest, reference: string)
    returns (b: Booking, i: nat)
    requires CreateBooking(db, user, req, reference).0.Ok?
    ensures CanReserve(db, b, i)
    ensures b.flightId == req.flightId && b.seatId == req.seatId
    ensures CreateBooking(db, user, req, reference) == (Ok(Receipt(b.id, b.reference, b.totalAmount)), Reserved(db, b))
  {
    b := Admit(db, user, req, reference).value;
    assert CreateBooking(db, user, req, reference) == (Ok(Receipt(b.id, b.reference, b.totalAmount)), Reserved(db, b));
    var f, j :| && 0 <= f < |db.flights| && db.flights[f].id == req.flightId
      && 0 <= j < |db.seats| && db.seats[j].id == req.seatId && db.seats[j].isAvailable
      && b.totalAmount == Fare(db.flights[f].price, db.seats[j].priceMultiplier);
    i := j;
    assert HasFlight(db, b.flightId);
    var u :| 0 <= u < |db.users| && db.users[u].id == user.value;
    assert HasUser(db, b.userId) by { assert db.users[u].id == b.userId; }
  }

  /** As written, a booking keeps the database consistent when the seat belongs to the flight. */
  lemma CreateBookingPreservesValid(db: Db, user: Option<int>, req: BookingRequest, reference: string)
    requires Valid(db)
    requires SeatOnFlight(db, req.seatId, req.flightId)
    ensures Valid(CreateBooking(db, user, req, reference).1)
  {
    if CreateBooking(db, user, req, reference).0.Ok? {
      var b, i := CreateBookingIsReserve(db, user, req, reference);
      ReservePreservesValid(db, b, i);
    }
  }

  /** As written, booking a free seat of another flight succeeds and breaks the booked flight's counter. */
  lemma CreateBookingForeignSeat(db: Db, user: Option<int>, req: BookingRequest, reference: string)
    requires Valid(db)
    requires CreateBooking(db, user, req, reference).0.Ok?
    requires !SeatOnFlight(db, req.seatId, req.flightId)
    ensures !CountersMatch(CreateBooking(db, user, req, reference).1)
  {
    var b, i := CreateBookingIsReserve(db, user, req, reference);
    var m :| 0 <= m < |db.seats| && db.seats[m].id == req.seatId && db.seats[m].flightId != req.flightId;
    IdsUnique(db.seats, SeatId, m, i);
    ReserveForeignSeatBreaksCounters(db, b, i);
  }

  /** The corrected booking route keeps the database consistent on every input. */
  lemma CreateBookingCheckedPreservesValid(db: Db, user: Option<int>, req: BookingRequest, reference: string)
    requires Valid(db)
    ensures Valid(CreateBookingChecked(db, user, req, reference).1)
  {
    if CreateBookingChecked(db, user, req, reference).0.Ok? {
      var m :| 0 <= m < |db.seats| && db.seats[m].id == req.seatId && db.seats[m].isAvailable
        && db.seats[m].flightId == req.flightId;
      forall k | 0 <= k < |db.seats| && db.seats[k].id == req.seatId
        ensures db.seats[k].flightId == req.flightId
      {
        IdsUnique(db.seats, SeatId, k, m);
      }
      CreateBookingPreservesValid(db, user, req, reference);
    }
  }

  // ---------------------------------------------------------------------------
  // A cancellation
  // ---------------------------------------------------------------------------

  lemma ReleasedKeysKept(db: Db, b: Booking)
    ensures KeysKept(db, Released(db, b))
  {
  }

  /** A confirmed booking is counted among the holds on its seat. */
  lemma {:induction false} ConfirmedCounted(bookings: seq<Booking>, i: nat)
    requires i < |bookings| && bookings[i].status == Confirmed
    ensures ConfirmedFor(bookings, bookings[i].seatId) >= 1
  {
    if i > 0 {
      ConfirmedCounted(bookings[1..], i - 1);
    }
  }

  /** In a consistent database a confirmed booking's seat exists, is taken, and belongs to the booking's flight. */
  lemma HeldSeat(db: Db, i: nat) returns (j: nat)
    requires Valid(db) && i < |db.bookings| && db.bookings[i].status == Confirmed
    ensures j < |db.seats| && db.seats[j].id == db.bookings[i].seatId
    ensures db.seats[j].flightId == db.bookings[i].flightId && !db.seats[j].isAvailable
  {
    j :| 0 <= j < |db.seats| && db.seats[j].id == db.bookings[i].seatId;
    ConfirmedCounted(db.bookings, i);
  }

  /** Cancelling a confirmed booking frees its seat and gives it back to its flight's counter. */
  lemma ReleaseCounters(db: Db, i: nat)
    requires Valid(db) && i < |db.bookings| && db.bookings[i].status == Confirmed
    ensures CountersMatch(Released(db, db.bookings[i]))
  {
    var b := db.bookings[i];
    var db' := Released(db, b);
    var j := HeldSeat(db, i);
    IdsDistinct(db.seats, SeatId, j);
    forall k | 0 <= k < |db'.flights|
      ensures db'.flights[k].availableSeats == CountAvailable(db'.seats, db'.flights[k].id)
    {
      CountAfterSetSeat(db.seats, j, true, db.flights[k].id);
    }
  }

  /** Cancelling a confirmed booking releases its seat's only hold and touches no other seat. */
  lemma ReleaseHolds(db: Db, i: nat)
    requires Valid(db) && i < |db.bookings| && db.bookings[i].status == Confirmed
    ensures SeatsMatchBookings(Released(db, db.bookings[i]))
  {
    var b := db.bookings[i];
    var db' := Released(db, b);
    var j := HeldSeat(db, i);
    IdsDistinct(db.bookings, BookingId, i);
    forall k | 0 <= k < |db'.seats|
      ensures ConfirmedFor(db'.bookings, db'.seats[k].id) == if db'.seats[k].isAvailable then 0 else 1
    {
      ConfirmedAfterCancel(db.bookings, i, db.seats[k].id);
      if db.seats[k].id == b.seatId {
        IdsUnique(db.seats, SeatId, k, j);
      }
    }
  }

  lemma ReleasePreservesValid(db: Db, i: nat)
    requires Valid(db) && i < |db.bookings| && db.bookings[i].status == Confirmed
    ensures Valid(Released(db, db.bookings[i]))
  {
    ReleasedKeysKept(db, db.bookings[i]);
    KeptOrderAndReferences(db, Released(db, db.bookings[i]));
    ReleaseCounters(db, i);
    ReleaseHolds(db, i);
  }

  /** Cancelling a cancelled booking whose seat is still free raises its flight's counter
      above the live count. */
  lemma ReleaseFreeSeatOvercounts(db: Db, i: nat, j: nat, f: nat)
    requires IdsAscending(db.seats, SeatId) && CountersMatch(db)
    requires i < |db.bookings| && j < |db.seats| && f < |db.flights|
    requires db.seats[j].id == db.bookings[i].seatId && db.seats[j].isAvailable
    requires db.flights[f].id == db.bookings[i].flightId
    ensures !CountersMatch(Released(db, db.bookings[i]))
  {
    var b := db.bookings[i];
    var db' := Released(db, b);
    IdsDistinct(db.seats, SeatId, j);
    CountAfterSetSeat(db.seats, j, true, b.flightId);
    assert db'.flights[f].availableSeats == CountAvailable(db'.seats, db'.flights[f].id) + 1;
  }

  /** Cancelling a cancelled booking whose seat was booked again frees the seat under the
      other booking's hold. */
  lemma ReleaseTakenSeatUnderHold(db: Db, i: nat, j: nat)
    requires IdsAscending(db.bookings, BookingId) && SeatsMatchBookings(db)
    requires i < |db.bookings| && db.bookings[i].status == Cancelled
    requires j < |db.seats| && db.seats[j].id == db.bookings[i].seatId && !db.seats[j].isAvailable
    ensures !SeatsMatchBookings(Released(db, db.bookings[i]))
  {
    var b := db.bookings[i];
    var db' := Released(db, b);
    IdsDistinct(db.bookings, BookingId, i);
    ConfirmedAfterCancel(db.bookings, i, b.seatId);
    assert ConfirmedFor(db'.bookings, db'.seats[j].id) == 1;
  }

  /** Cancelling a booking that is already cancelled breaks consistency: if its seat is still
      free the flight's counter overshoots the live count; if the seat was booked again the
      seat is freed under a confirmed booking. */
  lemma ReleaseCancelledBreaksValid(db: Db, i: nat)
    requires Valid(db) && i < |db.bookings| && db.bookings[i].status == Cancelled
    ensures !Valid(Released(db, db.bookings[i]))
  {
    var b := db.bookings[i];
    var j :| 0 <= j < |db.seats| && db.seats[j].id == b.seatId;
    var f :| 0 <= f < |db.flights| && db.flights[f].id == b.flightId;
    if db.seats[j].isAvailable {
      ReleaseFreeSeatOvercounts(db, i, j, f);
    } else {
      ReleaseTakenSeatUnderHold(db, i, j);
    }
  }

  /** Every booking with this id is still confirmed. */
  predicate StillConfirmed(db: Db, bookingId: nat) {
    forall k :: 0 <= k < |db.bookings| && db.bookings[k].id == bookingId ==> db.bookings[k].status == Confirmed
  }

  // ---------------------------------------------------------------------------
  // PUT /api/bookings/:id/cancel
  // ---------------------------------------------------------------------------

  /** As written, a cancellation keeps the database consistent when the booking is still confirmed. */
  lemma CancelBookingPreservesValid(db: Db, userId: int, bookingId: nat)
    requires Valid(db)
    requires StillConfirmed(db, bookingId)
    ensures Valid(CancelBooking(db, userId, bookingId).1)
  {
    if CancelBooking(db, userId, bookingId).0.Ok? {
      var k :| 0 <= k < |db.bookings| && db.bookings[k].id == bookingId && db.bookings[k].userId == userId
        && CancelBooking(db, userId, bookingId).1 == Released(db, db.bookings[k]);
      ReleasePreservesValid(db, k);
    }
  }

  /** The corrected cancellation keeps the database consistent on every input. */
  lemma CancelBookingCheckedPreservesValid(db: Db, userId: int, bookingId: nat)
    requires Valid(db)
    ensures Valid(CancelBookingChecked(db, userId, bookingId).1)
  {
    if CancelBookingChecked(db, userId, bookingId).0.Ok? {
      var k :| 0 <= k < |db.bookings| && db.bookings[k].id == bookingId && db.bookings[k].userId == userId
        && db.bookings[k].status == Confirmed && CancelBookingChecked(db, userId, bookingId).1 == Released(db, db.bookings[k]);
      ReleasePreservesValid(db, k);
    }
  }

  /** As written, a booking that is already cancelled can be cancelled again, and that breaks consistency. */
  lemma CancelCancelledBreaksValid(db: Db, userId: int, bookingId: nat, m: nat)
    requires Valid(db)
    requires m < |db.bookings| && db.bookings[m].id == bookingId && db.bookings[m].userId == userId
    requires db.bookings[m].status == Cancelled
    ensures CancelBooking(db, userId, bookingId).0 == Ok(())
    ensures !Valid(CancelBooking(db, userId, bookingId).1)
  {
    var k :| 0 <= k < |db.bookings| && db.bookings[k].id == bookingId && db.bookings[k].userId == userId
      && CancelBooking(db, userId, bookingId).1 == Released(db, db.bookings[k]);
    IdsUnique(db.bookings, BookingId, k, m);
    ReleaseCancelledBreaksValid(db, m);
  }

  /** As written, cancelling the same booking twice succeeds both times, and the second
      cancellation leaves the database inconsistent. */
  lemma CancelBookingTwice(db: Db, userId: int, bookingId: nat)
    requires Valid(db)
    requires OwnedConfirmed(db, bookingId, userId)
    ensures var db1 := CancelBooking(db, userId, bookingId).1;
      && Valid(db1)
      && CancelBooking(db1, userId, bookingId).0 == Ok(())
      && !Valid(CancelBooking(db1, userId, bookingId).1)
  {
    var m :| 0 <= m < |db.bookings| && db.bookings[m].id == bookingId && db.bookings[m].userId == userId
      && db.bookings[m].status == Confirmed;
    IdsDistinct(db.bookings, BookingId, m);
    CancelBookingPreservesValid(db, userId, bookingId);
    var db1 := CancelBooking(db, userId, bookingId).1;
    assert db1.bookings[m] == db.bookings[m].(status := Cancelled);
    CancelCancelledBreaksValid(db1, userId, bookingId, m);
  }

  // ---------------------------------------------------------------------------
  // Booking, then cancelling
  // ---------------------------------------------------------------------------

  /** Taking a free seat and then freeing it again restores the seat table. */
  lemma SeatRestored(seats: seq<Seat>, i: nat)
    requires i < |seats| && seats[i].isAvailable
    requires forall m :: 0 <= m < |seats| && m != i ==> seats[m].id != seats[i].id
    ensures SetSeatAvailability(SetSeatAvailability(seats, seats[i].id, false), seats[i].id, true) == seats
  {
    var r := SetSeatAvailability(SetSeatAvailability(seats, seats[i].id, false), seats[i].id, true);
    forall m | 0 <= m < |seats| ensures r[m] == seats[m] {
    }
  }

  /** Lowering a counter by one and raising it by one restores the flight table. */
  lemma CounterRestored(flights: seq<Flight>, flightId: nat)
    ensures AdjustAvailableSeats(AdjustAvailableSeats(flights, flightId, -1), flightId, 1) == flights
  {
    var r := AdjustAvailableSeats(AdjustAvailableSeats(flights, flightId, -1), flightId, 1);
    forall m | 0 <= m < |flights| ensures r[m] == flights[m] {
    }
  }

  /** Cancelling the booking just appended under a fresh id touches no other booking. */
  lemma AppendedCancelled(bookings: seq<Booking>, b: Booking)
    requires forall k :: 0 <= k < |bookings| ==> bookings[k].id < b.id
    ensures SetBookingStatus(bookings + [b], b.id, Cancelled) == bookings + [b.(status := Cancelled)]
  {
    var all := bookings + [b];
    var r := SetBookingStatus(all, b.id, Cancelled);
    var want := bookings + [b.(status := Cancelled)];
    assert |r| == |want|;
    forall m | 0 <= m < |r| ensures r[m] == want[m] {
      if m < |bookings| {
        assert all[m] == bookings[m] && want[m] == bookings[m];
        assert all[m].id != b.id;
      } else {
        assert all[m] == b && want[m] == b.(status := Cancelled);
      }
    }
  }

  /** Releasing a just-reserved booking restores every seat and counter. */
  lemma ReleaseUndoesReserve(db: Db, b: Booking, i: nat)
    requires Valid(db) && CanReserve(db, b, i)
    ensures Released(Reserved(db, b), b) == db.(bookings := db.bookings + [b.(status := Cancelled)])
  {
    IdsDistinct(db.seats, SeatId, i);
    SeatRestored(db.seats, i);
    CounterRestored(db.flights, b.flightId);
    AppendedCancelled(db.bookings, b);
  }

  /** In a table in id order, cancelling by a booking's id and owner releases exactly that booking. */
  lemma CancelReleases(db: Db, k: nat)
    requires IdsAscending(db.bookings, BookingId)
    requires k < |db.bookings|
    ensures CancelBooking(db, db.bookings[k].userId, db.bookings[k].id) == (Ok(()), Released(db, db.bookings[k]))
  {
    var b := db.bookings[k];
    var m :| 0 <= m < |db.bookings| && db.bookings[m].id == b.id && db.bookings[m].userId == b.userId
      && CancelBooking(db, b.userId, b.id).1 == Released(db, db.bookings[m]);
    IdsUnique(db.bookings, BookingId, k, m);
  }

  /** Cancelling a fresh booking gives back the database as it was before the booking, except
      that the booking stays on record as cancelled: every seat and flight counter is restored. */
  lemma CancelUndoesCreate(db: Db, user: Option<int>, req: BookingRequest, reference: string)
    requires Valid(db)
    requires CreateBooking(db, user, req, reference).0.Ok?
    ensures var db1 := CreateBooking(db, user, req, reference).1;
      var id := CreateBooking(db, user, req, reference).0.value.bookingId;
      CancelBooking(db1, user.value, id)
        == (Ok(()), db.(bookings := db.bookings + [db1.bookings[|db.bookings|].(status := Cancelled)]))
  {
    var b, i := CreateBookingIsReserve(db, user, req, reference);
    var db1 := Reserved(db, b);
    var n := |db.bookings|;
    ReserveOrder(db, b, i);
    assert db1.bookings[n] == b;
    CancelReleases(db1, n);
    ReleaseUndoesReserve(db, b, i);
  }
}

=== FILE: payments.dfy ===
/** `POST /api/payments` of backend/server.js. There is no transaction: the payment row is
    inserted first, and the later outcomes (booking not found, the temporary directory or the
    confirmation PDF failing, the e-mail failing) do not take it back. The file system, the PDF
    and the e-mail are outside the model; whether each succeeded enters as a parameter. The route checks neither who owns the
    booking nor its status. */
module Payments {
  import opened Base
  import opened Store
  import opened Api

  /** The two success bodies: `{ message, transactionId }`. */
  datatype Outcome = EmailSent(transactionId: string) | EmailFailed(transactionId: string)

  function OutcomeMessage(o: Outcome): string {
    match o
    case EmailSent(_) => "Payment successful and email sent"
    case EmailFailed(_) => "Payment successful (email failed)"
  }

  /** The payment row charged for one booking row. */
  function ChargeFor(b: Booking, paymentMethod: string, transactionId: string): Payment {
    Payment(b.id, paymentMethod, "completed", transactionId, b.totalAmount)
  }

  /** The WHERE clause `id = ?` on bookings. */
  function BookingWithId(id: nat): Booking -> bool {
    (b: Booking) => b.id == id
  }

  /** `INSERT INTO payments ... SELECT ?, ?, 'completed', ?, total_amount FROM bookings WHERE id = ?`:
      one completed payment per booking row with that id, charged that row's total. */
  function Charges(bookings: seq<Booking>, bookingId: nat, paymentMethod: string, transactionId: string): (r: seq<Payment>)
    ensures |r| <= |bookings|
    ensures forall p :: p in r ==>
      && p.bookingId == bookingId && p.paymentMethod == paymentMethod
      && p.status == "completed" && p.transactionId == transactionId
      && exists k :: 0 <= k < |bookings| && bookings[k].id == bookingId && bookings[k].totalAmount == p.amount
    ensures (forall k :: 0 <= k < |bookings| ==> bookings[k].id != bookingId) ==> r == []
  {
    if |bookings| == 0 then []
    else
      var rest := Charges(bookings[1..], bookingId, paymentMethod, transactionId);
      assert forall p :: p in rest ==>
        exists k :: 0 <= k < |bookings| && bookings[k].id == bookingId && bookings[k].totalAmount == p.amount by {
        forall p | p in rest
          ensures exists k :: 0 <= k < |bookings| && bookings[k].id == bookingId && bookings[k].totalAmount == p.amount
        {
          var k :| 0 <= k < |bookings[1..]| && bookings[1..][k].id == bookingId && bookings[1..][k].totalAmount == p.amount;
          assert bookings[k + 1] == bookings[1..][k];
        }
      }
      (if bookings[0].id == bookingId then [ChargeFor(bookings[0], paymentMethod, transactionId)] else []) + rest
  }

  /** The insert charges each selected booking row once, in table order: one payment per
      row with that id, for that row's total. */
  lemma {:induction false} ChargesFollowSelect(bookings: seq<Booking>, bookingId: nat, paymentMethod: string, transactionId: string)
    ensures var r := Charges(bookings, bookingId, paymentMethod, transactionId);
      && |r| == |Select(bookings, BookingWithId(bookingId))|
      && forall k :: 0 <= k < |r| ==>
           r[k] == ChargeFor(Select(bookings, BookingWithId(bookingId))[k], paymentMethod, transactionId)
  {
    if |bookings| > 0 {
      ChargesFollowSelect(bookings[1..], bookingId, paymentMethod, transactionId);
      var head := if bookings[0].id == bookingId then [ChargeFor(bookings[0], paymentMethod, transactionId)] else [];
      var rest := Charges(bookings[1..], bookingId, paymentMethod, transactionId);
      var selected := Select(bookings, BookingWithId(bookingId));
      var selectedRest := Select(bookings[1..], BookingWithId(bookingId));
      assert Charges(bookings, bookingId, paymentMethod, transactionId) == head + rest;
      assert selected == (if bookings[0].id == bookingId then [bookings[0]] else []) + selectedRest;
      forall k | 0 <= k < |head + rest|
        ensures (head + rest)[k] == ChargeFor(selected[k], paymentMethod, transactionId)
      {
        if k >= |head| {
          assert (head + rest)[k] == rest[k - |head|];
          assert selected[k] == selectedRest[k - |head|];
        }
      }
    }
  }

  /** The `SELECT b.*, f.* FROM bookings b JOIN flights f ON b.flight_id = f.id WHERE b.id = ?` finds a row. */
  predicate Joined(db: Db, bookingId: nat) {
    exists k, f :: 0 <= k < |db.bookings| && 0 <= f < |db.flights|
      && db.bookings[k].id == bookingId && db.flights[f].id == db.bookings[k].flightId
  }

  /** `POST /api/payments`. `transactionId` is `'TXN' + Date.now()`; `dirOk` says whether the
      check for (and creation of) the temporary PDF directory returned normally, a throw there
      reaching the handler's catch; `pdfOk` whether the confirmation PDF stream finished;
      `emailOk` whether `sendMail` resolved and the temporary PDF was then deleted, since both
      sit in the same `try`. */
  function Pay(db: Db, bookingId: nat, paymentMethod: string, transactionId: string,
               dirOk: bool, pdfOk: bool, emailOk: bool)
    : (r: (Result<Outcome, Error>, Db))
    ensures r.1.users == db.users && r.1.flights == db.flights && r.1.seats == db.seats && r.1.bookings == db.bookings
    ensures |r.1.payments| >= |db.payments| && r.1.payments[..|db.payments|] == db.payments
    ensures forall k :: |db.payments| <= k < |r.1.payments| ==>
      r.1.payments[k].bookingId == bookingId && r.1.payments[k].transactionId == transactionId
    ensures r.1.payments == db.payments + Charges(db.bookings, bookingId, paymentMethod, transactionId)
    ensures !HasBooking(db, bookingId) ==> r.1 == db
    ensures r.0.Err? <==> !Joined(db, bookingId) || !dirOk || !pdfOk
    ensures !Joined(db, bookingId) ==> r.0 == Err(BookingNotFound)
    ensures Joined(db, bookingId) && !dirOk ==> r.0 == Err(InternalError)
    ensures Joined(db, bookingId) && dirOk && !pdfOk ==> r.0 == Err(PdfFailed)
    ensures r.0.Ok? ==> r.0.value == if emailOk then EmailSent(transactionId) else EmailFailed(transactionId)
  {
    var charged := db.(payments := db.payments + Charges(db.bookings, bookingId, paymentMethod, transactionId));
    assert charged.payments[..|db.payments|] == db.payments;
    assert forall k :: |db.payments| <= k < |charged.payments| ==>
      charged.payments[k] in Charges(db.bookings, bookingId, paymentMethod, transactionId);
    var outcome :=
      if !Joined(db, bookingId) then Err(BookingNotFound)
      else if !dirOk then Err(InternalError)
      else if !pdfOk then Err(PdfFailed)
      else if emailOk then Ok(EmailSent(transactionId))
      else Ok(EmailFailed(transactionId));
    (outcome, charged)
  }

  /** In a table in id order, a booking is charged exactly once, for its own total. */
  lemma {:induction false} ChargesOfUnique(bookings: seq<Booking>, k: nat, paymentMethod: string, transactionId: string)
    requires IdsAscending(bookings, BookingId)
    requires k < |bookings|
    ensures Charges(bookings, bookings[k].id, paymentMethod, transactionId) == [ChargeFor(bookings[k], paymentMethod, transactionId)]
  {
    var tail := bookings[1..];
    assert IdsAscending(tail, BookingId) by {
      forall j, m | 0 <= j < m < |tail| ensures BookingId(tail[j]) < BookingId(tail[m]) {
        assert tail[j] == bookings[j + 1] && tail[m] == bookings[m + 1];
      }
    }
    if k == 0 {
      forall m | 0 <= m < |tail| ensures tail[m].id != bookings[0].id {
        assert BookingId(bookings[0]) < BookingId(bookings[m + 1]);
      }
    } else {
      assert BookingId(bookings[0]) < BookingId(bookings[k]);
      assert tail[k - 1] == bookings[k];
      ChargesOfUnique(tail, k - 1, paymentMethod, transactionId);
    }
  }

  /** A payment row that names an existing booking keeps the database consistent. */
  lemma AppendPaymentValid(db: Db, p: Payment)
    requires Valid(db)
    requires HasBooking(db, p.bookingId)
    ensures Valid(db.(payments := db.payments + [p]))
  {
    var db' := db.(payments := db.payments + [p]);
    forall m | 0 <= m < |db'.payments| ensures HasBooking(db', db'.payments[m].bookingId) {
      if m < |db.payments| {
        assert db'.payments[m] == db.payments[m];
      }
    }
  }

  /** Paying for a booking of a table whose ids are unique records exactly one completed
      payment of its total, whatever the rest of the database looks like. */
  lemma PayAppendsOne(db: Db, k: nat, paymentMethod: string, transactionId: string, dirOk: bool, pdfOk: bool, emailOk: bool)
    requires IdsAscending(db.bookings, BookingId)
    requires k < |db.bookings|
    ensures Pay(db, db.bookings[k].id, paymentMethod, transactionId, dirOk, pdfOk, emailOk).1.payments
      == db.payments + [Payment(db.bookings[k].id, paymentMethod, "completed", transactionId, db.bookings[k].totalAmount)]
  {
    ChargesOfUnique(db.bookings, k, paymentMethod, transactionId);
  }

  /** Paying for a booking of a consistent database records exactly one completed payment of
      its total, and keeps the database consistent. */
  lemma PayChargesOnce(db: Db, k: nat, paymentMethod: string, transactionId: string, dirOk: bool, pdfOk: bool, emailOk: bool)
    requires Valid(db)
    requires k < |db.bookings|
    ensures var db' := Pay(db, db.bookings[k].id, paymentMethod, transactionId, dirOk, pdfOk, emailOk).1;
      && db'.payments == db.payments + [Payment(db.bookings[k].id, paymentMethod, "completed", transactionId, db.bookings[k].totalAmount)]
      && Valid(db')
  {
    var b := db.bookings[k];
    ChargesOfUnique(db.bookings, k, paymentMethod, transactionId);
    assert Pay(db, b.id, paymentMethod, transactionId, dirOk, pdfOk, emailOk).1
      == db.(payments := db.payments + [ChargeFor(b, paymentMethod, transactionId)]);
    assert HasBooking(db, b.id);
    AppendPaymentValid(db, ChargeFor(b, paymentMethod, transactionId));
  }

  /** In a consistent database, a booking is always found by the payment route: the only
      errors left are the file system and the PDF failing. */
  lemma PayFindsBooking(db: Db, k: nat, paymentMethod: string, transactionId: string, dirOk: bool, pdfOk: bool, emailOk: bool)
    requires Valid(db)
    requires k < |db.bookings|
    ensures Pay(db, db.bookings[k].id, paymentMethod, transactionId, dirOk, pdfOk, emailOk).0.Ok? <==> dirOk && pdfOk
  {
    assert HasFlight(db, db.bookings[k].flightId);
    var f :| 0 <= f < |db.flights| && db.flights[f].id == db.bookings[k].flightId;
    assert Joined(db, db.bookings[k].id);
  }
}

=== FILE: scenarios.dfy ===
/** Concrete runs of the booking routes as written, on a two-flight database with one seat per
    flight, that show the two ways the seat counters drift from the seat flags. */
module Scenarios {
  import opened Base
  import opened Store
  import opened Bookings
  import opened Invariants

  /** One user; flights 1 and 2, each with one free seat (seat 1 on flight 1, seat 2 on flight 2). */
  const Demo := Db(
    [User(1, "asha", "asha@example.com", "hash", "Asha", "Rao", "5550100")],
    [Flight(1, "AI101", "Air India", "Delhi", "Mumbai", "2025-01-10T09:00", "2025-01-10T11:00", 5000.0, 1, 1),
     Flight(2, "AI202", "Air India", "Delhi", "Chennai", "2025-01-10T12:00", "2025-01-10T14:30", 6000.0, 1, 1)],
    [Seat(1, 1, "1A", "economy", true, 1.0),
     Seat(2, 2, "1A", "economy", true, 1.0)],
    [],
    [])

  lemma DemoValid()
    ensures Valid(Demo)
  {
    assert Demo.flights[0].id == 1 && Demo.flights[1].id == 2;
    assert HasFlight(Demo, 1) && HasFlight(Demo, 2);
    assert CountAvailable(Demo.seats[1..], 1) == 0;
    assert CountAvailable(Demo.seats[1..], 2) == 1;
  }

  /** The request for flight 1 that names seat 2, a seat of flight 2. */
  const ForeignRequest := BookingRequest(1, 2, "Asha Rao", "asha@example.com", "5550100")

  /** Booking flight 1 with seat 2 succeeds, and afterwards flight 1's counter says no seat is
      free while its seat is, and flight 2's says one is free while none is. */
  lemma ForeignSeatExample()
    ensures CreateBooking(Demo, Some(1), ForeignRequest, "BK1").0.Ok?
    ensures !CountersMatch(CreateBooking(Demo, Some(1), ForeignRequest, "BK1").1)
  {
    DemoValid();
    assert SeatFree(Demo, 2) by { assert Demo.seats[1].id == 2; }
    assert UserExists(Demo, 1) by { assert Demo.users[0].id == 1; }
    assert !SeatOnFlight(Demo, 2, 1) by { assert Demo.seats[1].id == 2 && Demo.seats[1].flightId == 2; }
    CreateBookingForeignSeat(Demo, Some(1), ForeignRequest, "BK1");
  }

  /** The well-formed request: seat 1 of flight 1. */
  const HomeRequest := BookingRequest(1, 1, "Asha Rao", "asha@example.com", "5550100")

  /** The row booking seat 1 of flight 1 adds to `Demo`. */
  const HomeBooking := Booking(1, 1, 1, 1, "BK1", Fare(5000.0, 1.0), "Asha Rao", "asha@example.com", "5550100", Confirmed)

  lemma HomeBooked()
    ensures CreateBooking(Demo, Some(1), HomeRequest, "BK1").1 == Reserved(Demo, HomeBooking)
  {
    assert OpenSeat(Demo, 1) == Some(0) by { assert Demo.seats[0].id == 1; }
    assert FlightRow(Demo, 1) == Some(0) by { assert Demo.flights[0].id == 1; }
    assert UserExists(Demo, 1) by { assert Demo.users[0].id == 1; }
    assert NextId(Demo.bookings, BookingId) == 1;
    assert Admit(Demo, Some(1), HomeRequest, "BK1") == Ok(HomeBooking);
  }

  /** The database after booking seat 1 of flight 1, and after cancelling that booking once. */
  const Booked := Reserved(Demo, HomeBooking)
  const CancelledOnce := Released(Booked, HomeBooking)

  lemma FirstCancel()
    ensures CancelBooking(Booked, 1, 1) == (Ok(()), CancelledOnce)
  {
    assert Booked.bookings == [HomeBooking];
    CancelReleases(Booked, 0);
  }

  lemma SecondCancel()
    ensures CancelBooking(CancelledOnce, 1, 1) == (Ok(()), Released(CancelledOnce, HomeBooking.(status := Cancelled)))
  {
    assert Booked.bookings == [HomeBooking];
    assert CancelledOnce.bookings == [HomeBooking.(status := Cancelled)];
    CancelReleases(CancelledOnce, 0);
  }

  lemma CancelledTwiceNumbers()
    ensures Released(CancelledOnce, HomeBooking.(status := Cancelled)).seats == Demo.seats
    ensures |Released(CancelledOnce, HomeBooking.(status := Cancelled)).flights| == 2
    ensures Released(CancelledOnce, HomeBooking.(status := Cancelled)).flights[0].availableSeats == 2
  {
    var db3 := Released(CancelledOnce, HomeBooking.(status := Cancelled));
    assert Booked.flights[0].availableSeats == 0 && CancelledOnce.flights[0].availableSeats == 1;
    assert db3.seats[0] == Demo.seats[0] && db3.seats[1] == Demo.seats[1];
  }

  /** Booking seat 1 of flight 1 leaves a consistent database with booking 1 confirmed for user 1. */
  lemma BookedValid()
    ensures Valid(Booked) && OwnedConfirmed(Booked, 1, 1)
  {
    DemoValid();
    assert SeatFree(Demo, 1) by { assert Demo.seats[0].id == 1; }
    assert UserExists(Demo, 1) by { assert Demo.users[0].id == 1; }
    assert SeatOnFlight(Demo, 1, 1);
    CreateBookingPreservesValid(Demo, Some(1), HomeRequest, "BK1");
    HomeBooked();
    assert Booked.bookings[0] == HomeBooking;
  }

  /** Booking seat 1 of flight 1 and cancelling booking 1 twice: both cancellations succeed,
      and the second leaves the database inconsistent. */
  lemma DoubleCancelExample()
    ensures var db1 := CreateBooking(Demo, Some(1), HomeRequest, "BK1").1;
      var db2 := CancelBooking(db1, 1, 1).1;
      && CancelBooking(db1, 1, 1).0 == Ok(())
      && CancelBooking(db2, 1, 1).0 == Ok(())
      && Valid(db2)
      && !Valid(CancelBooking(db2, 1, 1).1)
  {
    HomeBooked();
    FirstCancel();
    BookedValid();
    CancelBookingTwice(Booked, 1, 1);
  }

  /** The same run in numbers: the second cancellation succeeds, leaves both seats free as at
      the start, and raises flight 1's counter to 2 although the flight has a single seat. */
  lemma DoubleCancelCounter()
    ensures var db1 := CreateBooking(Demo, Some(1), HomeRequest, "BK1").1;
      var db2 := CancelBooking(db1, 1, 1).1;
      && CancelBooking(db2, 1, 1).0 == Ok(())
      && CancelBooking(db2, 1, 1).1.seats == Demo.seats
      && |CancelBooking(db2, 1, 1).1.flights| == 2
      && CancelBooking(db2, 1, 1).1.flights[0].availableSeats == 2
  {
    HomeBooked();
    FirstCancel();
    SecondCancel();
    CancelledTwiceNumbers();
  }
}

=== FILE: schema.dfy ===
/** The connection module of the backend: how the schema script is cut into
    statements when the database is initialised, and how the connection is closed
    (backend/db/sqlite.js). */
module Schema {
  import opened Base
  import opened Text

  /** The filter applied to each trimmed chunk: non-empty and not a `--` comment. */
  predicate Kept(stmt: string) {
    |stmt| > 0 && !StartsWith(stmt, "--")
  }

  /** A statement as the splitter can produce it. */
  predicate WellFormed(stmt: string) {
    Clean1(stmt) && ';' !in stmt
  }

  /** No chunk holds the separator. */
  predicate SeparatorFree(chunks: seq<string>) {
    forall k :: 0 <= k < |chunks| ==> ';' !in chunks[k]
  }

  /** A trimmed chunk that passes the filter. */
  predicate Clean1(stmt: string) {
    Kept(stmt) && !IsJsSpace(stmt[0]) && !IsJsSpace(stmt[|stmt| - 1])
  }

  /** One chunk's contribution: its trimmed text if that passes the filter. */
  function CleanChunk(chunk: string): (r: seq<string>)
    ensures |r| <= 1
    ensures |r| == 1 ==> r[0] == Trim(chunk) && Clean1(r[0])
    ensures |r| == 0 <==> !Kept(Trim(chunk))
  {
    var t := Trim(chunk);
    if Kept(t) then [t] else []
  }

  /** Trims every chunk and keeps, in order, the trimmed chunks that pass the filter. */
  function Clean(chunks: seq<string>): (r: seq<string>)
    ensures |r| <= |chunks|
  {
    if |chunks| == 0 then [] else CleanChunk(chunks[0]) + Clean(chunks[1..])
  }

  /** Everything Clean keeps is trimmed and passes the filter, and holds no separator if no chunk did. */
  lemma {:induction false} CleanWellFormed(chunks: seq<string>)
    ensures forall k :: 0 <= k < |Clean(chunks)| ==> Clean1(Clean(chunks)[k])
    ensures SeparatorFree(chunks) ==> SeparatorFree(Clean(chunks))
  {
    if |chunks| > 0 {
      var head := CleanChunk(chunks[0]);
      CleanWellFormed(chunks[1..]);
      assert ';' !in chunks[0] ==> SeparatorFree(head) by {
        if |head| == 1 {
          assert forall c :: c in head[0] ==> c in chunks[0];
        }
      }
    }
  }

  /** The statements `initializeDatabase` prepares and runs from the schema text. */
  function Statements(schema: string): (r: seq<string>)
    ensures forall k :: 0 <= k < |r| ==> WellFormed(r[k])
  {
    CleanWellFormed(Split(schema, ';'));
    Clean(Split(schema, ';'))
  }

  /** `initializeDatabase` runs the schema's statements only when the schema file exists. */
  function InitialStatements(schemaFile: Option<string>): (r: seq<string>)
    ensures schemaFile.None? ==> r == []
    ensures schemaFile.Some? ==> r == Statements(schemaFile.value)
    ensures forall k :: 0 <= k < |r| ==> WellFormed(r[k])
  {
    match schemaFile
    case None => []
    case Some(text) => Statements(text)
  }

  lemma {:induction false} CleanAppend(a: seq<string>, b: seq<string>)
    ensures Clean(a + b) == Clean(a) + Clean(b)
  {
    if |a| > 0 {
      assert (a + b)[1..] == a[1..] + b;
      CleanAppend(a[1..], b);
    } else {
      assert a + b == b;
    }
  }

  /** Order is kept: the statements of `a;b` are those of `a` followed by those of `b`. */
  lemma StatementsAppend(a: string, b: string)
    ensures Statements(a + ";" + b) == Statements(a) + Statements(b)
  {
    SplitAppend(a, b, ';');
    CleanAppend(Split(a, ';'), Split(b, ';'));
  }

  /** A text with no separator yields its trimmed self when that passes the filter, and nothing otherwise. */
  lemma StatementsOfChunk(a: string)
    requires ';' !in a
    ensures Kept(Trim(a)) ==> Statements(a) == [Trim(a)]
    ensures !Kept(Trim(a)) ==> Statements(a) == []
  {
    SplitFree(a, ';');
  }

  /** A chunk that begins with a comment line is dropped whole, even when SQL follows the comment. */
  lemma CommentSwallowsStatement(comment: string, sql: string)
    requires ';' !in comment && ';' !in sql
    ensures Statements("--" + comment + "\n" + sql) == []
  {
    var x := "--" + comment + "\n" + sql;
    assert x[0] == '-' && x[1] == '-';
    assert TrimStart(x) == x;
    var r := TrimEnd(x);
    assert !IsJsSpace(x[1]);
    assert |r| >= 2;
    assert r[..2] == x[..2] == "--";
    assert !Kept(Trim(x));
    StatementsOfChunk(x);
  }

  /** Every separator-free, trimmed, non-comment statement list survives a join and re-split unchanged. */
  lemma StatementsOfJoin(stmts: seq<string>)
    requires |stmts| >= 1
    requires forall k :: 0 <= k < |stmts| ==> WellFormed(stmts[k])
    ensures Statements(Join(stmts, ';')) == stmts
  {
    SplitJoin(stmts, ';');
    CleanKeepsWellFormed(stmts);
  }

  lemma {:induction false} CleanKeepsWellFormed(stmts: seq<string>)
    requires forall k :: 0 <= k < |stmts| ==> Clean1(stmts[k])
    ensures Clean(stmts) == stmts
  {
    if |stmts| > 0 {
      var s := stmts[0];
      assert TrimStart(s) == s;
      assert TrimEnd(s) == s;
      CleanKeepsWellFormed(stmts[1..]);
      assert stmts == [s] + stmts[1..];
    }
  }

  // ---------------------------------------------------------------------------
  // closeDatabase
  // ---------------------------------------------------------------------------

  /** The open better-sqlite3 handle, identified by its file. */
  datatype Connection = Connection(path: string)

  datatype CloseOutcome = Resolved | Rejected

  /** `closeDatabase`: closes and forgets an open handle; with no handle it resolves at once.
      `closeThrows` stands for `db.close()` raising, which rejects and keeps the handle. */
  function CloseDatabase(handle: Option<Connection>, closeThrows: bool): (r: (CloseOutcome, Option<Connection>))
    ensures r.0 == Resolved <==> handle.None? || !closeThrows
    ensures r.0 == Resolved ==> r.1.None?
    ensures r.0 == Rejected ==> r.1 == handle
  {
    match handle
    case None => (Resolved, None)
    case Some(_) => if closeThrows then (Rejected, handle) else (Resolved, None)
  }

  /** After a successful close the handle is null, and closing again is a no-op that still resolves,
      whatever the driver would do. */
  lemma CloseIdempotent(handle: Option<Connection>, first: bool, second: bool)
    requires CloseDatabase(handle, first).0 == Resolved
    ensures CloseDatabase(CloseDatabase(handle, first).1, second) == (Resolved, None)
  {
  }
}

=== FILE: store.dfy ===
/** The SQLite database the route handlers share, as an immutable value.

    Each table is a sequence of rows in rowid order. A table's `id` column is its
    INTEGER PRIMARY KEY, so rowid order is id order and `IdsAscending` is the
    representation invariant of every table. `UPDATE ... WHERE id = ?` touches every
    matching row and `get()` returns the first matching row, as in SQL. */
module Store {
  import opened Base

  datatype User = User(
    id: nat, username: string, email: string, passwordHash: string,
    firstName: string, lastName: string, phone: string)

  /** `availableSeats` is the cached counter that must track the seat flags. */
  datatype Flight = Flight(
    id: nat, flightNumber: string, airline: string,
    departureCity: string, arrivalCity: string,
    departureTime: string, arrivalTime: string,
    price: real, totalSeats: int, availableSeats: int)

  datatype Seat = Seat(
    id: nat, flightId: nat, seatNumber: string, seatClass: string,
    isAvailable: bool, priceMultiplier: real)

  /** The seat columns `GET /api/flights/:id` sends to the browser (no `flight_id`). */
  datatype SeatView = SeatView(
    id: nat, seatNumber: string, seatClass: string, isAvailable: bool, priceMultiplier: real)

  datatype BookingStatus = Confirmed | Cancelled

  datatype Booking = Booking(
    id: nat, userId: nat, flightId: nat, seatId: nat, reference: string, totalAmount: real,
    passengerName: string, passengerEmail: string, passengerPhone: string,
    status: BookingStatus)

  /** A payment row; its own id is never read back, so it is not modelled. */
  datatype Payment = Payment(
    bookingId: nat, paymentMethod: string, status: string, transactionId: string, amount: real)

  datatype Db = Db(
    users: seq<User>, flights: seq<Flight>, seats: seq<Seat>,
    bookings: seq<Booking>, payments: seq<Payment>)

  /** The amount charged for a seat: the flight's base price times the seat's multiplier. */
  function Fare(price: real, multiplier: real): real {
    price * multiplier
  }

  function ViewOf(s: Seat): SeatView {
    SeatView(s.id, s.seatNumber, s.seatClass, s.isAvailable, s.priceMultiplier)
  }

  // ---------------------------------------------------------------------------
  // Queries
  // ---------------------------------------------------------------------------

  /** `stmt.get()`: the index of the first row satisfying the WHERE clause. */
  function FindFirst<T>(rows: seq<T>, where: T -> bool): (r: Option<nat>)
    ensures r.Some? ==> r.value < |rows| && where(rows[r.value])
    ensures r.Some? ==> forall k :: 0 <= k < r.value ==> !where(rows[k])
    ensures r.None? ==> forall k :: 0 <= k < |rows| ==> !where(rows[k])
  {
    if |rows| == 0 then None
    else if where(rows[0]) then Some(0)
    else match FindFirst(rows[1..], where)
      case None => None
      case Some(i) => Some(i + 1)
  }

  /** `stmt.all()` without ORDER BY: the rows satisfying the WHERE clause, in rowid order. */
  function Select<T>(rows: seq<T>, where: T -> bool): (r: seq<T>)
    ensures |r| <= |rows|
    ensures forall k :: 0 <= k < |r| ==> r[k] in rows && where(r[k])
    ensures forall k :: 0 <= k < |rows| && where(rows[k]) ==> rows[k] in r
  {
    if |rows| == 0 then []
    else
      assert rows == [rows[0]] + rows[1..];
      (if where(rows[0]) then [rows[0]] else []) + Select(rows[1..], where)
  }

  /** Each row satisfying the WHERE clause is selected as many times as it occurs, and no other row. */
  lemma {:induction false} SelectCounts<T(!new)>(rows: seq<T>, where: T -> bool)
    ensures forall x :: multiset(Select(rows, where))[x] == if where(x) then multiset(rows)[x] else 0
  {
    if |rows| > 0 {
      SelectCounts(rows[1..], where);
      assert rows == [rows[0]] + rows[1..];
    }
  }

  /** Rows keep their table order: selecting from two runs of rows is selecting from each in turn. */
  lemma {:induction false} SelectAppend<T>(a: seq<T>, b: seq<T>, where: T -> bool)
    ensures Select(a + b, where) == Select(a, where) + Select(b, where)
  {
    if |a| == 0 {
      assert a + b == b;
    } else {
      assert (a + b)[1..] == a[1..] + b;
      SelectAppend(a[1..], b, where);
    }
  }

  /** The id SQLite gives the next inserted row: one more than the largest id in the table. */
  function NextId<T>(rows: seq<T>, id: T -> nat): (r: nat)
    ensures r >= 1
    ensures forall k :: 0 <= k < |rows| ==> id(rows[k]) < r
  {
    if |rows| == 0 then 1
    else
      var rest := NextId(rows[1..], id);
      if id(rows[0]) < rest then rest else id(rows[0]) + 1
  }

  predicate IdsAscending<T>(rows: seq<T>, id: T -> nat) {
    forall j, k :: 0 <= j < k < |rows| ==> id(rows[j]) < id(rows[k])
  }

  function UserId(u: User): nat { u.id }
  function FlightId(f: Flight): nat { f.id }
  function SeatId(s: Seat): nat { s.id }
  function BookingId(b: Booking): nat { b.id }

  /** Appending a row whose id exceeds every other keeps the table in id order. */
  lemma AppendFreshId<T>(rows: seq<T>, row: T, id: T -> nat)
    requires IdsAscending(rows, id)
    requires forall k :: 0 <= k < |rows| ==> id(rows[k]) < id(row)
    ensures IdsAscending(rows + [row], id)
  {
  }

  /** In a table kept in id order, an id names at most one row. */
  lemma IdsUnique<T>(rows: seq<T>, id: T -> nat, i: nat, m: nat)
    requires IdsAscending(rows, id)
    requires i < |rows| && m < |rows| && id(rows[i]) == id(rows[m])
    ensures i == m
  {
  }

  /** In a table kept in id order, no other row shares row `i`'s id. */
  lemma IdsDistinct<T>(rows: seq<T>, id: T -> nat, i: nat)
    requires IdsAscending(rows, id)
    requires i < |rows|
    ensures forall m :: 0 <= m < |rows| && m != i ==> id(rows[m]) != id(rows[i])
  {
  }

  // ---------------------------------------------------------------------------
  // Updates: UPDATE ... SET ... WHERE id = ?
  // ---------------------------------------------------------------------------

  /** `UPDATE seats SET is_available = v WHERE id = seatId`. */
  function SetSeatAvailability(seats: seq<Seat>, seatId: nat, v: bool): (r: seq<Seat>)
    ensures |r| == |seats|
    ensures forall k :: 0 <= k < |seats| ==>
      r[k] == if seats[k].id == seatId then seats[k].(isAvailable := v) else seats[k]
  {
    if |seats| == 0 then []
    else
      [if seats[0].id == seatId then seats[0].(isAvailable := v) else seats[0]]
        + SetSeatAvailability(seats[1..], seatId, v)
  }

  /** `UPDATE flights SET available_seats = available_seats + delta WHERE id = flightId`. */
  function AdjustAvailableSeats(flights: seq<Flight>, flightId: nat, delta: int): (r: seq<Flight>)
    ensures |r| == |flights|
    ensures forall k :: 0 <= k < |flights| ==>
      r[k] == if flights[k].id == flightId
              then flights[k].(availableSeats := flights[k].availableSeats + delta)
              else flights[k]
  {
    if |flights| == 0 then []
    else
      [if flights[0].id == flightId
       then flights[0].(availableSeats := flights[0].availableSeats + delta)
       else flights[0]]
        + AdjustAvailableSeats(flights[1..], flightId, delta)
  }

  /** `UPDATE bookings SET status = st WHERE id = bookingId`. */
  function SetBookingStatus(bookings: seq<Booking>, bookingId: nat, st: BookingStatus): (r: seq<Booking>)
    ensures |r| == |bookings|
    ensures forall k :: 0 <= k < |bookings| ==>
      r[k] == if bookings[k].id == bookingId then bookings[k].(status := st) else bookings[k]
  {
    if |bookings| == 0 then []
    else
      [if bookings[0].id == bookingId then bookings[0].(status := st) else bookings[0]]
        + SetBookingStatus(bookings[1..], bookingId, st)
  }

  // ---------------------------------------------------------------------------
  // Aggregates
  // ---------------------------------------------------------------------------

  /** `COUNT(CASE WHEN s.is_available = 1 THEN 1 END)` over the seats of one flight. */
  function CountAvailable(seats: seq<Seat>, flightId: nat): nat {
    if |seats| == 0 then 0
    else
      var here := if seats[0].flightId == flightId && seats[0].isAvailable then 1 else 0;
      here + CountAvailable(seats[1..], flightId)
  }

  /** The seats the count counts: `s.flight_id = f.id AND s.is_available = 1`. */
  function FreeSeatOf(flightId: nat): Seat -> bool {
    (s: Seat) => s.flightId == flightId && s.isAvailable
  }

  /** The count is the number of the flight's available seats. */
  lemma {:induction false} CountAvailableSelect(seats: seq<Seat>, flightId: nat)
    ensures CountAvailable(seats, flightId) == |Select(seats, FreeSeatOf(flightId))|
  {
    if |seats| > 0 {
      CountAvailableSelect(seats[1..], flightId);
    }
  }

  /** The number of confirmed bookings that hold a seat. */
  function ConfirmedFor(bookings: seq<Booking>, seatId: nat): nat {
    if |bookings| == 0 then 0
    else
      var here := if bookings[0].seatId == seatId && bookings[0].status == Confirmed then 1 else 0;
      here + ConfirmedFor(bookings[1..], seatId)
  }

  // ---------------------------------------------------------------------------
  // Invariants of a consistent database
  // ---------------------------------------------------------------------------

  predicate HasUser(db: Db, id: nat) { exists k :: 0 <= k < |db.users| && db.users[k].id == id }
  predicate HasFlight(db: Db, id: nat) { exists k :: 0 <= k < |db.flights| && db.flights[k].id == id }
  predicate HasSeat(db: Db, id: nat) { exists k :: 0 <= k < |db.seats| && db.seats[k].id == id }
  predicate HasBooking(db: Db, id: nat) { exists k :: 0 <= k < |db.bookings| && db.bookings[k].id == id }

  /** Every table is in id order, hence ids are unique. */
  predicate KeysOrdered(db: Db) {
    && IdsAscending(db.users, UserId)
    && IdsAscending(db.flights, FlightId)
    && IdsAscending(db.seats, SeatId)
    && IdsAscending(db.bookings, BookingId)
  }

  /** Foreign keys hold (`PRAGMA foreign_keys = ON`), and a booking's flight is its seat's flight. */
  predicate References(db: Db) {
    && (forall k :: 0 <= k < |db.seats| ==> HasFlight(db, db.seats[k].flightId))
    && (forall k :: 0 <= k < |db.bookings| ==>
          HasUser(db, db.bookings[k].userId) && HasFlight(db, db.bookings[k].flightId)
          && HasSeat(db, db.bookings[k].seatId))
    && (forall k :: 0 <= k < |db.payments| ==> HasBooking(db, db.payments[k].bookingId))
    && (forall k, j :: 0 <= k < |db.bookings| && 0 <= j < |db.seats| && db.seats[j].id == db.bookings[k].seatId
          ==> db.seats[j].flightId == db.bookings[k].flightId)
  }

  /** The cached counter of every flight equals the live number of its available seats. */
  predicate CountersMatch(db: Db) {
    forall k :: 0 <= k < |db.flights| ==>
      db.flights[k].availableSeats == CountAvailable(db.seats, db.flights[k].id)
  }

  /** A seat is taken exactly when one confirmed booking holds it, and free when none does. */
  predicate SeatsMatchBookings(db: Db) {
    forall k :: 0 <= k < |db.seats| ==>
      ConfirmedFor(db.bookings, db.seats[k].id) == if db.seats[k].isAvailable then 0 else 1
  }

  /** No two users share an email or a username. */
  predicate IdentitiesUnique(db: Db) {
    forall j, k :: 0 <= j < k < |db.users| ==>
      db.users[j].email != db.users[k].email && db.users[j].username != db.users[k].username
  }

  predicate Valid(db: Db) {
    && KeysOrdered(db)
    && References(db)
    && CountersMatch(db)
    && SeatsMatchBookings(db)
    && IdentitiesUnique(db)
  }

  // ---------------------------------------------------------------------------
  // How single-row updates move the aggregates
  // ---------------------------------------------------------------------------

  lemma {:induction false} SetSeatNoMatch(seats: seq<Seat>, seatId: nat, v: bool)
    requires forall k :: 0 <= k < |seats| ==> seats[k].id != seatId
    ensures SetSeatAvailability(seats, seatId, v) == seats
  {
    if |seats| > 0 {
      SetSeatNoMatch(seats[1..], seatId, v);
    }
  }

  /** Flipping the flag of the one seat with id `seats[i].id` moves its flight's live count by
      at most one and leaves every other flight's count alone. */
  lemma {:induction false} CountAfterSetSeat(seats: seq<Seat>, i: nat, v: bool, flightId: nat)
    requires i < |seats|
    requires forall k :: 0 <= k < |seats| && k != i ==> seats[k].id != seats[i].id
    ensures CountAvailable(SetSeatAvailability(seats, seats[i].id, v), flightId)
      == CountAvailable(seats, flightId)
         - (if seats[i].flightId == flightId && seats[i].isAvailable then 1 else 0)
         + (if seats[i].flightId == flightId && v then 1 else 0)
  {
    var sid := seats[i].id;
    var r := SetSeatAvailability(seats, sid, v);
    if i == 0 {
      SetSeatNoMatch(seats[1..], sid, v);
      assert r[1..] == SetSeatAvailability(seats[1..], sid, v);
    } else {
      CountAfterSetSeat(seats[1..], i - 1, v, flightId);
      assert r[1..] == SetSeatAvailability(seats[1..], sid, v);
    }
  }

  lemma {:induction false} SetStatusNoMatch(bookings: seq<Booking>, bookingId: nat, st: BookingStatus)
    requires forall k :: 0 <= k < |bookings| ==> bookings[k].id != bookingId
    ensures SetBookingStatus(bookings, bookingId, st) == bookings
  {
    if |bookings| > 0 {
      SetStatusNoMatch(bookings[1..], bookingId, st);
    }
  }

  /** Cancelling the one booking with id `bookings[i].id` releases its hold on its seat only. */
  lemma {:induction false} ConfirmedAfterCancel(bookings: seq<Booking>, i: nat, seatId: nat)
    requires i < |bookings|
    requires forall k :: 0 <= k < |bookings| && k != i ==> bookings[k].id != bookings[i].id
    ensures ConfirmedFor(SetBookingStatus(bookings, bookings[i].id, Cancelled), seatId)
      == ConfirmedFor(bookings, seatId)
         - (if bookings[i].seatId == seatId && bookings[i].status == Confirmed then 1 else 0)
  {
    var bid := bookings[i].id;
    var r := SetBookingStatus(bookings, bid, Cancelled);
    if i == 0 {
      SetStatusNoMatch(bookings[1..], bid, Cancelled);
      assert r[1..] == SetBookingStatus(bookings[1..], bid, Cancelled);
    } else {
      ConfirmedAfterCancel(bookings[1..], i - 1, seatId);
      assert r[1..] == SetBookingStatus(bookings[1..], bid, Cancelled);
    }
  }

  /** A new booking adds one hold on its own seat. */
  lemma {:induction false} ConfirmedAfterAppend(bookings: seq<Booking>, b: Booking, seatId: nat)
    ensures ConfirmedFor(bookings + [b], seatId)
      == ConfirmedFor(bookings, seatId) + (if b.seatId == seatId && b.status == Confirmed then 1 else 0)
  {
    if |bookings| == 0 {
      assert bookings + [b] == [b];
    } else {
      assert (bookings + [b])[1..] == bookings[1..] + [b];
      ConfirmedAfterAppend(bookings[1..], b, seatId);
    }
  }
}

=== FILE: text.dfy ===
/** String primitives the JavaScript and SQL code relies on: `trim`, `split(';')`,
    `startsWith`, `parseInt`, SQLite's `LOWER` and the lexicographic string order
    of JavaScript's `<` and SQLite's BINARY collation. */
module Text {
  import opened Base

  /** The characters ECMAScript's `trim` and `parseInt` skip: WhiteSpace and LineTerminator. */
  predicate IsJsSpace(c: char) {
    || c == '\t' || c == '\n' || c == '\U{000B}' || c == '\U{000C}' || c == '\r' || c == ' '
    || c == '\U{00A0}' || c == '\U{1680}' || ('\U{2000}' <= c <= '\U{200A}')
    || c == '\U{2028}' || c == '\U{2029}' || c == '\U{202F}' || c == '\U{205F}'
    || c == '\U{3000}' || c == '\U{FEFF}'
  }

  /** `s` with its leading whitespace removed. */
  function TrimStart(s: string): (r: string)
    ensures |r| <= |s| && r == s[|s| - |r|..]
    ensures forall k :: 0 <= k < |s| - |r| ==> IsJsSpace(s[k])
    ensures |r| > 0 ==> !IsJsSpace(r[0])
  {
    if |s| > 0 && IsJsSpace(s[0]) then TrimStart(s[1..]) else s
  }

  /** `s` with its trailing whitespace removed. */
  function TrimEnd(s: string): (r: string)
    ensures |r| <= |s| && r == s[..|r|]
    ensures forall k :: |r| <= k < |s| ==> IsJsSpace(s[k])
    ensures |r| > 0 ==> !IsJsSpace(r[|r| - 1])
  {
    if |s| > 0 && IsJsSpace(s[|s| - 1]) then TrimEnd(s[..|s| - 1]) else s
  }

  /** JavaScript's `String.prototype.trim`. */
  function Trim(s: string): (r: string)
    ensures |r| > 0 ==> !IsJsSpace(r[0]) && !IsJsSpace(r[|r| - 1])
    ensures forall c :: c in r ==> c in s
  {
    TrimEnd(TrimStart(s))
  }

  /** Trim cuts a run of whitespace off each end and keeps the middle slice intact. */
  lemma TrimIsSlice(s: string) returns (i: nat, j: nat)
    ensures i <= j <= |s| && Trim(s) == s[i..j]
    ensures forall k :: 0 <= k < i ==> IsJsSpace(s[k])
    ensures forall k :: j <= k < |s| ==> IsJsSpace(s[k])
  {
    var t := TrimStart(s);
    i := |s| - |t|;
    var r := TrimEnd(t);
    j := i + |r|;
    assert t == s[i..];
    assert r == t[..|r|];
    assert r == s[i..j];
    forall k | j <= k < |s|
      ensures IsJsSpace(s[k])
    {
      assert s[k] == t[k - i];
    }
  }

  /** Trimming twice is trimming once. */
  lemma TrimIdempotent(s: string)
    ensures Trim(Trim(s)) == Trim(s)
  {
    var r := Trim(s);
    assert TrimStart(r) == r;
  }

  /** JavaScript's `s.startsWith(p)`. */
  predicate StartsWith(s: string, p: string) {
    |p| <= |s| && s[..|p|] == p
  }

  /** SQLite's built-in `lower()` folds only the ASCII letters. */
  function LowerChar(c: char): (r: char)
    ensures 'A' <= c <= 'Z' ==> r as int == c as int + 32
    ensures !('A' <= c <= 'Z') ==> r == c
  {
    if 'A' <= c <= 'Z' then (c as int + 32) as char else c
  }

  function Lower(s: string): (r: string)
    ensures |r| == |s|
    ensures forall k :: 0 <= k < |s| ==> r[k] == LowerChar(s[k])
  {
    if |s| == 0 then [] else [LowerChar(s[0])] + Lower(s[1..])
  }

  // ---------------------------------------------------------------------------
  // split(sep) and its inverse join(sep)
  // ---------------------------------------------------------------------------

  /** JavaScript's `s.split(sep)` for a one-character separator: always at least one chunk,
      the empty string splits to `[""]`, and a trailing separator yields a trailing empty chunk. */
  function Split(s: string, sep: char): (r: seq<string>)
    ensures |r| >= 1
    ensures forall k :: 0 <= k < |r| ==> sep !in r[k]
  {
    if |s| == 0 then [""]
    else if s[0] == sep then [""] + Split(s[1..], sep)
    else
      var rest := Split(s[1..], sep);
      [[s[0]] + rest[0]] + rest[1..]
  }

  /** `chunks.join(sep)`. */
  function Join(chunks: seq<string>, sep: char): string
    requires |chunks| >= 1
  {
    if |chunks| == 1 then chunks[0] else chunks[0] + [sep] + Join(chunks[1..], sep)
  }

  /** A text splits into several chunks exactly when it contains the separator. */
  lemma {:induction false} SplitSeveral(s: string, sep: char)
    ensures |Split(s, sep)| >= 2 <==> sep in s
  {
    if |s| > 0 {
      SplitSeveral(s[1..], sep);
      assert s == [s[0]] + s[1..];
    }
  }

  /** Joining the chunks of a split gives back the text. */
  lemma {:induction false} JoinSplit(s: string, sep: char)
    ensures Join(Split(s, sep), sep) == s
  {
    if |s| == 0 {
    } else if s[0] == sep {
      JoinSplit(s[1..], sep);
      assert Split(s, sep) == [""] + Split(s[1..], sep);
    } else {
      JoinSplit(s[1..], sep);
      var rest := Split(s[1..], sep);
      if |rest| == 1 {
        assert Split(s, sep) == [[s[0]] + rest[0]];
      } else {
        assert Split(s, sep)[1..] == rest[1..];
        assert Join(rest, sep) == rest[0] + [sep] + Join(rest[1..], sep);
      }
    }
  }

  /** The second chunk is the text between the first separator and the next one (or the end). */
  lemma SecondChunk(s: string, sep: char)
    requires |Split(s, sep)| >= 2
    ensures exists rest :: s == Split(s, sep)[0] + [sep] + Split(s, sep)[1] + rest
                           && (rest == [] || rest[0] == sep)
  {
    var w := Split(s, sep);
    JoinSplit(s, sep);
    assert s == w[0] + [sep] + Join(w[1..], sep);
    if |w| == 2 {
      assert s == w[0] + [sep] + w[1] + [];
    } else {
      var rest := [sep] + Join(w[2..], sep);
      assert w[1..][1..] == w[2..];
      assert Join(w[1..], sep) == w[1] + rest;
      assert s == w[0] + [sep] + w[1] + rest;
    }
  }

  /** Splitting a join of separator-free chunks gives back the chunks. */
  lemma {:induction false} SplitJoin(chunks: seq<string>, sep: char)
    requires |chunks| >= 1
    requires forall k :: 0 <= k < |chunks| ==> sep !in chunks[k]
    ensures Split(Join(chunks, sep), sep) == chunks
  {
    if |chunks| == 1 {
      SplitFree(chunks[0], sep);
    } else {
      SplitJoin(chunks[1..], sep);
      SplitAppend(chunks[0], Join(chunks[1..], sep), sep);
      SplitFree(chunks[0], sep);
    }
  }

  /** A separator-free text is a single chunk. */
  lemma {:induction false} SplitFree(s: string, sep: char)
    requires sep !in s
    ensures Split(s, sep) == [s]
  {
    if |s| > 0 {
      SplitFree(s[1..], sep);
      assert [s[0]] + s[1..] == s;
    }
  }

  /** One step of the split: the first character either ends the first chunk or extends it. */
  lemma SplitFirst(s: string, sep: char)
    requires |s| > 0
    ensures s[0] == sep ==> Split(s, sep) == [""] + Split(s[1..], sep)
    ensures s[0] != sep ==> Split(s, sep) == [[s[0]] + Split(s[1..], sep)[0]] + Split(s[1..], sep)[1..]
  {
  }

  /** Splitting distributes over a separator: the chunks of `a + sep + b` are those of `a`
      followed by those of `b`. */
  lemma {:induction false} SplitAppend(a: string, b: string, sep: char)
    ensures Split(a + [sep] + b, sep) == Split(a, sep) + Split(b, sep)
  {
    if |a| == 0 {
      assert a + [sep] + b == [sep] + b;
      assert (a + [sep] + b)[1..] == b;
    } else {
      var s := a + [sep] + b;
      assert s[0] == a[0];
      assert s[1..] == a[1..] + [sep] + b;
      SplitAppend(a[1..], b, sep);
      SplitFirst(s, sep);
      SplitFirst(a, sep);
      var tail := Split(s[1..], sep);
      var rest := Split(a[1..], sep);
      if a[0] != sep {
        assert tail[0] == rest[0];
        assert tail[1..] == rest[1..] + Split(b, sep);
      }
    }
  }

  // ---------------------------------------------------------------------------
  // Lexicographic order: JavaScript's `<` on strings and SQLite's BINARY collation
  // ---------------------------------------------------------------------------

  /** `a <= b` in lexicographic code-point order (a prefix precedes its extensions). */
  predicate LexLe(a: string, b: string) {
    if |a| == 0 then true
    else if |b| == 0 then false
    else if a[0] != b[0] then a[0] < b[0]
    else LexLe(a[1..], b[1..])
  }

  /** JavaScript's `a < b` on strings. */
  predicate LexLt(a: string, b: string) {
    !LexLe(b, a)
  }

  lemma {:induction false} LexLeTotal(a: string, b: string)
    ensures LexLe(a, b) || LexLe(b, a)
  {
    if |a| > 0 && |b| > 0 && a[0] == b[0] {
      LexLeTotal(a[1..], b[1..]);
    }
  }

  lemma {:induction false} LexLeReflexive(a: string)
    ensures LexLe(a, a)
  {
    if |a| > 0 {
      LexLeReflexive(a[1..]);
    }
  }

  lemma {:induction false} LexLeTransitive(a: string, b: string, c: string)
    requires LexLe(a, b) && LexLe(b, c)
    ensures LexLe(a, c)
  {
    if |a| > 0 && |b| > 0 && |c| > 0 && a[0] == b[0] && b[0] == c[0] {
      LexLeTransitive(a[1..], b[1..], c[1..]);
    }
  }

  lemma {:induction false} LexLeAntisymmetric(a: string, b: string)
    requires LexLe(a, b) && LexLe(b, a)
    ensures a == b
  {
    if |a| > 0 && |b| > 0 {
      LexLeAntisymmetric(a[1..], b[1..]);
      assert a == [a[0]] + a[1..];
      assert b == [b[0]] + b[1..];
    }
  }

  // ---------------------------------------------------------------------------
  // parseInt with no radix
  // ---------------------------------------------------------------------------

  predicate IsDecimalDigit(c: char) {
    '0' <= c <= '9'
  }

  predicate IsHexDigit(c: char) {
    IsDecimalDigit(c) || ('a' <= c <= 'f') || ('A' <= c <= 'F')
  }

  function DigitValue(c: char): (v: nat)
    requires IsHexDigit(c)
    ensures v < 16
    ensures IsDecimalDigit(c) ==> v < 10
  {
    if IsDecimalDigit(c) then c as int - '0' as int
    else if 'a' <= c <= 'f' then c as int - 'a' as int + 10
    else c as int - 'A' as int + 10
  }

  predicate IsRadixDigit(c: char, radix: nat) {
    if radix == 16 then IsHexDigit(c) else IsDecimalDigit(c)
  }

  /** The length of the longest prefix of `s` made of digits of `radix`. */
  function DigitRun(s: string, radix: nat): (n: nat)
    ensures n <= |s|
    ensures forall k :: 0 <= k < n ==> IsRadixDigit(s[k], radix)
    ensures n < |s| ==> !IsRadixDigit(s[n], radix)
  {
    if |s| > 0 && IsRadixDigit(s[0], radix) then 1 + DigitRun(s[1..], radix) else 0
  }

  /** The value of a string of digits, most significant first. */
  function DigitsValue(s: string, radix: nat): nat
    requires radix == 10 || radix == 16
    requires forall k :: 0 <= k < |s| ==> IsRadixDigit(s[k], radix)
  {
    if |s| == 0 then 0
    else
      var last := s[|s| - 1];
      assert IsRadixDigit(last, radix);
      DigitsValue(s[..|s| - 1], radix) * radix + DigitValue(last)
  }

  /** JavaScript's `parseInt(s)` with no radix: skip leading whitespace, take an optional sign,
      read hexadecimal after a `0x`/`0X` prefix and decimal otherwise, and stop at the first
      non-digit. `None` is NaN (no digit at all). */
  function ParseInt(s: string): Option<int> {
    var t := TrimStart(s);
    if |t| > 0 && t[0] == '-' then
      match ParseMagnitude(t[1..])
      case None => None
      case Some(v) => Some(-(v as int))
    else if |t| > 0 && t[0] == '+' then ParseMagnitude(t[1..])
    else ParseMagnitude(t)
  }

  /** The unsigned part of `parseInt`: hexadecimal after `0x`/`0X`, decimal otherwise. */
  function ParseMagnitude(u: string): Option<nat> {
    var radix := if |u| >= 2 && u[0] == '0' && (u[1] == 'x' || u[1] == 'X') then 16 else 10;
    var body := if radix == 16 then u[2..] else u;
    var n := DigitRun(body, radix);
    if n == 0 then None else Some(DigitsValue(body[..n], radix))
  }

  /** The decimal rendering of a natural number, as JavaScript's `String(n)` writes it. */
  function ToDecimal(n: nat): (r: string)
    ensures |r| >= 1
    ensures forall k :: 0 <= k < |r| ==> IsDecimalDigit(r[k])
    ensures n >= 10 ==> r[0] != '0'
    decreases n
  {
    if n < 10 then ['0' + n as char] else ToDecimal(n / 10) + ['0' + (n % 10) as char]
  }

  lemma {:induction false} DigitsValueToDecimal(n: nat)
    ensures DigitsValue(ToDecimal(n), 10) == n
    decreases n
  {
    if n >= 10 {
      DigitsValueToDecimal(n / 10);
      var r := ToDecimal(n);
      assert r[..|r| - 1] == ToDecimal(n / 10);
    }
  }

  /** `parseInt(String(n)) == n` for every natural number. */
  lemma ParseIntToDecimal(n: nat)
    ensures ParseInt(ToDecimal(n)) == Some(n)
  {
    var s := ToDecimal(n);
    DecimalIsParsed(s);
    DigitsValueToDecimal(n);
  }

  lemma DecimalIsParsed(s: string)
    requires |s| >= 1
    requires forall k :: 0 <= k < |s| ==> IsDecimalDigit(s[k])
    ensures ParseInt(s) == Some(DigitsValue(s, 10))
  {
    assert IsDecimalDigit(s[0]);
    assert !IsJsSpace(s[0]) && s[0] != '-' && s[0] != '+';
    assert TrimStart(s) == s;
    ParseMagnitudeDecimal(s);
    assert ParseInt(s) == ParseMagnitude(s);
  }

  /** A string of decimal digits that is not a hexadecimal prefix reads as its decimal value. */
  lemma ParseMagnitudeDecimal(s: string)
    requires |s| >= 1
    requires forall k :: 0 <= k < |s| ==> IsDecimalDigit(s[k])
    ensures ParseMagnitude(s) == Some(DigitsValue(s, 10))
  {
    if |s| >= 2 {
      assert IsDecimalDigit(s[1]);
    }
    DigitRunAll(s);
    assert s[..|s|] == s;
  }

  lemma {:induction false} DigitRunAll(s: string)
    requires forall k :: 0 <= k < |s| ==> IsDecimalDigit(s[k])
    ensures DigitRun(s, 10) == |s|
  {
    if |s| > 0 {
      DigitRunAll(s[1..]);
    }
  }
}
